=== FILE: README.md ===
# pack-your-bags core, modelled in Dafny

A model of two pieces of the pack-your-bags travel-booking backend, with
proofs of what they do.

1. **The departure-group matcher** (`GroupMatchingService.findMatches`).
   - It takes the pending bookings of one package on one travel date, in
     repository order.
   - It sorts them stably by ascending seat count.
   - It packs them first-fit under a seat cap: a booking is added when it
     fits and skipped otherwise, and the loop breaks as soon as the seats
     taken equal the cap.
   - The cap is the caller's override when one is supplied (`??`, so 0
     counts) and the package's `maxTravelers` otherwise.
   - The package is looked up by the caller's id. An id the database
     cannot read as a uuid makes that query throw, and the call rejects.
   - Otherwise the result is `null` for an unknown package, no
     candidates, or an empty group.
   - Module `GroupMatching`, file `group_matching.dfy`.
2. **The booking and payment lifecycle, as the handlers implement it.**
   - Entities:
     - `BookingModel` and `PaymentModel`: the two entities, with their
       status enums and column defaults.
     - `Catalog`: the package fields the core reads.
     - `Identity`: the authenticated requester.
   - `Ledger`: the two tables as immutable maps, plus the primitive
     INSERT/UPDATE operations.
     - `WellFormed`: the constraints the entity schema creates. The
       payment join column is a foreign key, and it is unique because the
       relation is one-to-one.
     - `Lookup`: a `findOne` by a client-supplied id.
   - `BookingController`: `createBooking` and `updateBookingStatus`.
   - `PaymentController`: `createPaymentIntent`, `confirmPayment` with
     `handleSuccessfulPayment`, `processAutoPayment` and `processRefund`.
   - `Lifecycle`: the handlers served one after another. It proves what
     holds of every store a request sequence reaches, and walks through
     some concrete sequences.

Each handler is a pure function from the store and the request to a
`Reply(store, result)`. The result is `Success(body)` or `Failure(code)`,
with codes 400, 403, 404 and 500. The handlers issue their `save`s one
after another, outside any transaction. So a failure that happens after a
save returns the store *with* that save applied. For example, a second
confirm of a paid booking saves it as confirmed, then the unique join
column refuses the second payment row, and the reply is 500.

Values the handlers draw from outside are parameters:
- the fresh primary key of an insert;
- the random `auto_…` transaction id;
- whether a gateway key is configured;
- what the gateway returns.

Money is integer cents (`Cents = int`). `toFixed(2)` on `price × n` is
therefore exact multiplication, and `Math.round(total × 100)` is the
identity. A travel date is a day number (`Day = int`), which matches the
date-only column.

Ids are `string`s.
- Every `findOne` by id goes through `Ledger.Lookup`. It follows the text
  grammar PostgreSQL accepts for a `uuid` value, modelled in `Uuid.IsUuid`.
- An id the database cannot parse makes the query throw, and the handler's
  `catch` answers 500.
- A well-formed id that matches no row answers 404, with two exceptions:
  - `handleSuccessfulPayment` skips a metadata booking id that matches no
    row, and `confirmPayment` then answers 200 with nothing written;
  - `findMatches` answers `null` for an unknown package. It is a service
    with no `catch` and no route, so an unparsable package id makes the
    call itself reject rather than answer 500.

What the code does not check or do, and the model follows:
- creation writes no payment row;
- creation does no capacity, availability or date check;
- the status update checks neither the source state nor ownership, and
  refunds nothing;
- a refund works from any payment status;
- auto-payment completes a refunded payment again;
- the sort has no tie-break beyond stability;
- the matcher's capacity override is checked neither against the
  package's `maxTravelers` nor for its sign.

## Model

| member | source | states |
|---|---|---|
| GroupMatching.FindMatches | backend/src/services/GroupMatchingService.ts:15-62 | a rejection exactly when the package id is not a uuid, since the lookup throws and nothing catches it; null for an unknown package or an empty fetch; otherwise the group is the first-fit pass over the seat-sorted fetch under the `??` capacity; a non-null result names the package, date and capacity, lists at least one booking, and its seat total is at most the capacity; null exactly when that pass chose nothing |
| GroupMatching.Capacity | backend/src/services/GroupMatchingService.ts:26 | a supplied override is the capacity, whatever its value (0 included); only an absent one falls back to the package's maxTravelers |
| GroupMatching.SortBySeatsPermutes | backend/src/services/GroupMatchingService.ts:39-41 | the sorted candidates are a permutation of the fetched ones |
| GroupMatching.SortBySeatsOrdered | backend/src/services/GroupMatchingService.ts:41 | the sorted candidates are in non-decreasing seat order |
| GroupMatching.SortBySeatsStable | backend/src/services/GroupMatchingService.ts:41 | for every seat count, the candidates with that count appear in fetch order (the sort is stable) |
| GroupMatching.SortBySeatsIds | backend/src/services/GroupMatchingService.ts:39-41 | the sorted candidates carry exactly the fetched booking ids, with multiplicity |
| GroupMatching.WalkFacts | backend/src/services/GroupMatchingService.ts:43-51 | the loop invariant after any number of iterations: `chosen` is the flagged candidates and `used` their seat sum; each visited candidate was added exactly when it fitted; `used` never equalled the cap before the last visit; the loop has broken exactly when it has visited at least one candidate and `used` equals the cap, whether or not that visit added anything; `used` is at most the cap once something was chosen |
| GroupMatching.Group | backend/src/services/GroupMatchingService.ts:43-51 | the pass is a greedy run: it adds exactly the visited candidates that fit, never stops while `used` differs from the cap, and stops early only at the cap; the chosen candidates are the added ones and `used` is their seat sum; once something is chosen, `used` is at most the cap (with a negative cap nothing is chosen and `used` stays 0) |
| GroupMatching.GreedyRunUnique | backend/src/services/GroupMatchingService.ts:45-51 | the greedy-run characterisation determines one run: any two runs over the same candidates and cap visit and add the same candidates |
| GroupMatching.SelectedWithin | backend/src/services/GroupMatchingService.ts:45-47 | the chosen candidates and their ids form a sub-multiset of the sorted candidates and their ids (chosen is a subsequence of sorted) |
| GroupMatching.MatchedBookingsArePending | backend/src/services/GroupMatchingService.ts:28-59 | when the fetch lists exactly the pending bookings of the package and day: a group lists each booking once; every listed booking is pending, of that package, on that day; and seatsTotal is the sum of the listed bookings' traveller counts |
| GroupMatching.ExamplePerfectPack | backend/src/services/GroupMatchingService.ts:39-61 | seats 3, 5, 2, 6 under cap 10 give the bookings with 2, 3 and 5 seats, in that order, with total 10 and capacity 10 |
| GroupMatching.ExampleSecondSkipped | backend/src/services/GroupMatchingService.ts:39-61 | seats 7, 7 under cap 10 give the first booking alone, with total 7 |
| GroupMatching.ExampleZeroOverride | backend/src/services/GroupMatchingService.ts:26-53 | an override of 0 is used as the cap, and positive-seat candidates then give null |
| GroupMatching.ExampleMalformedPackageId | backend/src/services/GroupMatchingService.ts:23 | the package id "abc" is not a uuid, so the call rejects even though the map holds a package under that string |
| BookingModel.ParseStatus | backend/src/models/Booking.ts:24-29 | the enum column accepts exactly the four names pending, confirmed, cancelled, completed; parsing is the inverse of the stored name |
| BookingModel.NewBooking | backend/src/models/Booking.ts:18-32 | an omitted status takes the column default pending; every given field is stored as given |
| PaymentModel.NewPayment | backend/src/models/Payment.ts:13-24 | an omitted status takes the column default pending; the transaction id stays absent unless given; booking and amount are stored as given |
| Ledger.Lookup | backend/src/models/Booking.ts:7-8 | a lookup by id on a uuid key finds the row exactly when the id is a uuid and a key; a non-uuid id is a server error (500) and a uuid that is not a key is not found (404) |
| Ledger.PaymentOf | backend/src/models/Payment.ts:9-11 | the payment found by its booking join column exists exactly when some payment references the booking, and references that booking |
| Ledger.InsertBooking | backend/src/models/Booking.ts:7-19 | an insert succeeds exactly when the key is new, the user and the package exist (both join columns are foreign keys) and the traveller count fits the 32-bit integer column, adds exactly that row, keeps every existing row, and keeps the schema constraints and the amount agreement |
| Ledger.InsertPayment | backend/src/models/Payment.ts:9-11 | an insert succeeds exactly when the key is new, the booking exists (the join column is a foreign key) and no payment already references it (unique one-to-one join); it adds exactly that row and keeps the constraints |
| Ledger.SetBookingStatus | backend/src/models/Booking.ts:24-29 | saving a booking's status changes that column of that row only and keeps the constraints and amount agreement |
| Ledger.RewritePayment | backend/src/models/Payment.ts:9-24 | saving a loaded payment with its join column and amount unchanged replaces that row only and keeps the constraints and amount agreement |
| BookingController.Created | backend/src/controllers/BookingController.ts:36-47 | the new booking is pending, owned by the requester, carries the requested package, traveller count and date, and its total is package price times traveller count in cents |
| BookingController.CreateBooking | backend/src/controllers/BookingController.ts:15-55 | malformed package id 500, unknown package 404, then malformed user id 500, unknown user 404, all with nothing written; success exactly when both resolve, the new key is free and the traveller count fits the 32-bit column, with no capacity, availability or date condition; when both resolve but the insert is refused, 500 with nothing written; success writes exactly the created booking; any store reached keeps the constraints, the amount agreement and every earlier row's fixed columns |
| BookingController.OversizedCountRejected | backend/src/controllers/BookingController.ts:42-54 | a traveller count of 2^31 fails the insert even when both lookups succeed: 500, nothing written |
| BookingController.UpdateBookingStatus | backend/src/controllers/BookingController.ts:84-102 | malformed id 500 and unknown id 404 with nothing written; an absent status writes nothing and echoes the row without a status key; a null or non-enum status is 500 with nothing written; an enum status is written over any current status, only that column of that booking changes and payments are untouched |
| BookingController.UpdateIgnoresRequester | backend/src/routes/bookings.ts:15 | the outcome is the same whoever asks: no ownership or role check |
| BookingController.UpdateReachesAnyStatus | backend/src/controllers/BookingController.ts:95-97 | any of the four statuses can be written over any booking's current status; no other column or booking moves, and the payment table is untouched |
| BookingController.UpdateThenRead | backend/src/controllers/BookingController.ts:95-97 | an update succeeds exactly when the string names an enum value, and the booking then reads back with that name |
| PaymentController.Receipt | backend/src/controllers/PaymentController.ts:130-139 | the payment a confirm creates is completed, for the booking's stored total, under the given transaction id and provider |
| PaymentController.CreatePaymentIntent | backend/src/controllers/PaymentController.ts:24-63 | nothing is written; malformed id 500, unknown booking 404; without a gateway key a mock secret; with one, 500 if the gateway throws, otherwise an intent charging the booking's total in cents, in usd, tagged with the booking id |
| PaymentController.ConfirmAndRecord | backend/src/controllers/PaymentController.ts:125-141 | the booking is saved confirmed; the payment insert succeeds exactly when the key is free and the booking has no payment yet, adding the receipt; otherwise 500 with the payments unchanged but the booking still confirmed |
| PaymentController.HandleSuccessfulPayment | backend/src/controllers/PaymentController.ts:74-103 | a malformed metadata id throws; an unknown booking is skipped with nothing written; otherwise the booking is confirmed and paid with a stripe receipt whose transaction id is the intent id, or the insert throws with the booking still confirmed |
| PaymentController.ConfirmPayment | backend/src/controllers/PaymentController.ts:105-161 | without a key: malformed id 500, unknown booking 404, otherwise confirm and a mock receipt under the body's intent id; with a key: retrieval failure 500, intent not succeeded 400, in both cases with nothing written, otherwise the outcome of handleSuccessfulPayment, whose throw becomes 500; every store reached keeps the constraints and amount agreement |
| PaymentController.AutoPaid | backend/src/controllers/PaymentController.ts:216-223 | the rewritten payment is completed under the new transaction id and the auto provider, with its booking and amount untouched |
| PaymentController.SettleBooking | backend/src/controllers/PaymentController.ts:206-249 | the booking is saved confirmed; an existing payment of the booking is completed in place and reported with its own amount; otherwise exactly one new completed payment for the booking's total is inserted and reported, or 500 when its key is taken |
| PaymentController.ProcessAutoPayment | backend/src/controllers/PaymentController.ts:185-254 | malformed id 500, unknown booking 404, a booking of another user 403, all with nothing written; for the owner, the settlement above; every store reached keeps the constraints and amount agreement |
| PaymentController.ProcessRefund | backend/src/controllers/PaymentController.ts:256-310 | a non-admin 403 before any read; malformed id 500; unknown payment 404; a throwing gateway refund 500; all with nothing written; otherwise the payment is saved refunded and its booking cancelled, whatever their prior statuses |
| PaymentController.SecondConfirmRejected | backend/src/controllers/PaymentController.ts:125-143 | a mock confirm of an unpaid booking succeeds; confirming the same booking again answers 500, adds no payment, and leaves the booking confirmed |
| PaymentController.GatewayConfirmIgnoresBodyBooking | backend/src/controllers/PaymentController.ts:146-156 | with a gateway key, the body's booking id never influences the outcome: the intent's metadata decides |
| PaymentController.RefundFromAnyStatus | backend/src/controllers/PaymentController.ts:274-303 | the refund's reply is the same whatever the payment's prior status, and on success so is the resulting store |
| PaymentController.AutoPayUpdatesInPlace | backend/src/controllers/PaymentController.ts:210-225 | for a booking that already has a payment, auto-payment creates no row: same payment keys, that row completed with its old amount, and the reply reports it |
| PaymentController.AutoPayAfterConfirmUpdatesInPlace | backend/src/controllers/PaymentController.ts:210-225 | after a confirm, auto-payment completes the confirm's payment row again in place, with the booking's total, and adds none |
| PaymentController.AutoPayAfterRefund | backend/src/controllers/PaymentController.ts:206-225 | auto-payment of a refunded, cancelled booking succeeds and makes the payment completed and the booking confirmed again |
| Lifecycle.Step | backend/src/models/Payment.ts:9-14 | any single request keeps the schema constraints, keeps every payment at its booking's total when the store had that, and only adds rows or moves statuses, transaction ids and providers |
| Lifecycle.RunInvariant | backend/src/models/Payment.ts:9-14 | the same three facts hold across any sequence of requests |
| Lifecycle.FromEmpty | backend/src/models/Payment.ts:9-14 | from an empty database, after any requests, every payment belongs to an existing booking, no booking has two payments, and every payment is for its booking's total |
| Lifecycle.IntentChargesCreatedPrice | backend/src/controllers/PaymentController.ts:47-54 | the intent for a booking just created charges the package price times the traveller count, in cents |
| Lifecycle.AfterBookTwo | backend/src/controllers/BookingController.ts:36-49 | a creation for two travellers on an empty database stores exactly one pending booking at twice the price |
| Lifecycle.AfterAutoPay | backend/src/controllers/PaymentController.ts:206-239 | the owner's auto-payment of a booking with no payment, under an unused payment key, confirms it and adds exactly one completed auto payment for its total, leaving every other row as it was |
| Lifecycle.AfterRefund | backend/src/controllers/PaymentController.ts:290-305 | an admin's refund through the gateway marks that payment refunded and its booking cancelled, nothing else |
| Lifecycle.AfterCancel | backend/src/controllers/BookingController.ts:95-97 | a status update to "cancelled" changes only that booking's status |
| Lifecycle.BookPayRefund | backend/src/controllers/PaymentController.ts:185-310 | book two travellers, auto-pay, refund: one cancelled booking and one refunded payment, both at twice the package price |
| Lifecycle.CancelKeepsPayment | backend/src/controllers/BookingController.ts:84-102 | cancelling a paid booking through the status update leaves its payment completed: no refund happens |
| Uuid.NilIsUuid | backend/src/models/Booking.ts:7-8 | the nil uuid, thirty-two zero digits, is accepted by the uuid grammar; the matcher examples use it as their package id |
| Uuid.UuidLength | backend/src/models/Booking.ts:7-8 | every id the uuid grammar accepts has 32 to 41 characters, so the empty string is never one |

## Left out

- Express routing, middleware and response plumbing: a reply is the pair of store and result, and HTTP codes are the four `Code` values.
- TypeORM repositories: reads are map lookups, and `save` is an insert or an update of one row. The `relations` loading is implicit, because a row carries its foreign keys.
- The gateway SDK: `paymentIntents.create`, `paymentIntents.retrieve` and `refunds.create` are inputs (`gatewayOk`, `Retrieval`, `refundOk`). The client secrets are the gateway's, and the `packageName` metadata is not modelled. A `Retrieved` intent is not tied to the body's `paymentIntentId`: the model does not require that the intent's id equals the requested one, or that the body carries one, which `paymentIntents.retrieve` would guarantee or refuse by throwing.
- The webhook handler, which only acknowledges and touches no data.
- `Date.now()` and `Math.random()` transaction ids and database-generated keys: these are parameters the caller picks.
- JWT verification and password hashing: the requester is a given `Requester(userId, role)`.
- Floating point: money is integer cents. Prices with more than two fraction digits, and `toFixed` rounding of them, are not modelled.
- Columns the core never reads: `travelerDetails`, `paymentId`, `createdAt`/`updatedAt`, and `paymentMethod`. The handlers also set `paymentMode`, which is not a column, so the save drops it. `paymentDetails` is reduced to its `provider`.
- Request bodies are typed:
  - a missing or non-string id, a non-integer or string traveller count, a travel date that is not a date, and `status` of a JSON type other than string or null are not modelled;
  - TypeORM's treatment of an `undefined` id in a `where` clause (it matches any row) is not modelled.
- Ledger.Lookup: an id that is a uuid but not a key is reported as not found, even when PostgreSQL would read it as the same uuid as a stored key. Keys are compared as strings, and upper/lower case, hyphen and brace variants of a stored uuid are not normalised.
- PaymentOf: requires the schema constraints (`WellFormed`), so that the payment found by booking is unique. The database guarantees this, and `Lifecycle.RunInvariant` shows that every handler keeps it.
- ProcessAutoPayment: requires `WellFormed` for the same reason. Its lookup of a payment by booking is a unique-column lookup only under the schema's constraints.
- SettleBooking: requires `WellFormed` and a present booking, as above.
- GroupMatching.FindMatches: the capacity override is taken as an integer. A fractional or `NaN` override never equals the integer seat total, so the loop's break never fires; that behaviour is not modelled. The `find` by package id runs only after the package lookup has accepted the id, so it cannot throw on its own.
- HandleSuccessfulPayment: an intent whose metadata carries no booking id is not modelled. Every intent `createPaymentIntent` creates carries one.
- Concurrency: the saves of two requests are never interleaved, and each request runs to completion before the next.
- The rest of the application: the frontend, travel package, itinerary and review CRUD, the admin reports, the seed data and the migration.

=== FILE: booking_controller.dfy ===
/** The booking handlers: creation, which snapshots the price, and the
    status update, which writes whatever status it is sent. */
module BookingController {
  import opened Outcomes
  import opened Identity
  import opened Catalog
  import opened BookingModel
  import opened Ledger
  import opened Uuid

  /** The fields of the creation request body the core reads. */
  datatype CreateBookingRequest = CreateBookingRequest(
    travelPackageId: PackageId,
    numberOfTravelers: int,
    travelDate: Day)

  /** The `status` field of a status-update body: left out, JSON `null`,
      or a string. */
  datatype StatusField = Absent | Null | Given(name: string)

  /** The JSON a successful status update sends back: the booking row, and
      whether the object still carries a `status` key (it does not when the
      handler assigned `undefined` to it). */
  datatype BookingEcho = BookingEcho(row: Booking, hasStatus: bool)

  /** The booking a successful creation writes. */
  function Created(packages: map<PackageId, TravelPackage>, who: Requester, req: CreateBookingRequest): (b: Booking)
    requires req.travelPackageId in packages
    ensures b.status == Pending && b.user == who.userId
    ensures b.travelPackage == req.travelPackageId && b.travelDate == req.travelDate
    ensures b.numberOfTravelers == req.numberOfTravelers
    ensures b.totalPrice == packages[req.travelPackageId].price * req.numberOfTravelers
  {
    NewBooking(who.userId, req.travelPackageId, req.numberOfTravelers,
               packages[req.travelPackageId].price * req.numberOfTravelers,
               Some(BookingStatus.Pending), req.travelDate)
  }

  /** createBooking. `users` is the key set of the user table and `newId`
      the key the database generates for the new row. The outcome depends
      on the two lookups, the key and the traveller count's fitting the
      32-bit column: never on the package's capacity or availability, or
      the date. A count the column cannot hold fails the INSERT, and the
      handler's `catch` answers 500. */
  function CreateBooking(s: Store, packages: map<PackageId, TravelPackage>, users: set<UserId>,
                         who: Requester, req: CreateBookingRequest, newId: BookingId): (r: Reply<Booking>)
    ensures !IsUuid(req.travelPackageId) ==> r == Reply(s, Failure(ServerError))
    ensures IsUuid(req.travelPackageId) && req.travelPackageId !in packages ==> r == Reply(s, Failure(NotFound))
    ensures IsUuid(req.travelPackageId) && req.travelPackageId in packages ==>
              && (!IsUuid(who.userId) ==> r == Reply(s, Failure(ServerError)))
              && (IsUuid(who.userId) && who.userId !in users ==> r == Reply(s, Failure(NotFound)))
    ensures r.result.Success? <==>
              && IsUuid(req.travelPackageId) && req.travelPackageId in packages
              && IsUuid(who.userId) && who.userId in users
              && newId !in s.bookings && FitsInteger(req.numberOfTravelers)
    ensures IsUuid(req.travelPackageId) && req.travelPackageId in packages && IsUuid(who.userId) && who.userId in users ==>
              (newId in s.bookings || !FitsInteger(req.numberOfTravelers) ==> r == Reply(s, Failure(ServerError)))
    ensures r.result.Success? ==>
              && r.result.value == Created(packages, who, req)
              && r.store == s.(bookings := s.bookings[newId := r.result.value])
    ensures r.result.Failure? ==> r.store == s
    ensures WellFormed(s) ==> WellFormed(r.store)
    ensures Consistent(s) ==> Consistent(r.store)
    ensures Evolves(s, r.store)
  {
    match Lookup(packages.Keys, req.travelPackageId)
    case Some(code) => Reply(s, Failure(code))
    case None =>
      match Lookup(users, who.userId)
      case Some(code) => Reply(s, Failure(code))
      case None =>
        var b := Created(packages, who, req);
        match InsertBooking(s, users, packages.Keys, newId, b)
        case None => Reply(s, Failure(ServerError))
        case Some(s') => Reply(s', Success(b))
  }

  /** A traveller count one past the largest 32-bit integer is refused by
      the column even when both lookups succeed: the reply is 500 and no
      booking is written. */
  lemma OversizedCountRejected(s: Store, packages: map<PackageId, TravelPackage>, users: set<UserId>,
                               who: Requester, pkg: PackageId, date: Day, newId: BookingId)
    requires IsUuid(pkg) && pkg in packages && IsUuid(who.userId) && who.userId in users
    ensures CreateBooking(s, packages, users, who, CreateBookingRequest(pkg, 0x8000_0000, date), newId)
         == Reply(s, Failure(ServerError))
  {
  }

  /** updateBookingStatus. The route applies authentication only, so the
      requester is passed in and read by nobody. */
  function UpdateBookingStatus(s: Store, who: Requester, id: BookingId, status: StatusField): (r: Reply<BookingEcho>)
    ensures !IsUuid(id) ==> r == Reply(s, Failure(ServerError))
    ensures IsUuid(id) && id !in s.bookings ==> r == Reply(s, Failure(NotFound))
    ensures IsUuid(id) && id in s.bookings ==>
      match status
      case Absent => r == Reply(s, Success(BookingEcho(s.bookings[id], false)))
      case Null => r == Reply(s, Failure(ServerError))
      case Given(name) =>
        match ParseStatus(name)
        case None => r == Reply(s, Failure(ServerError))
        case Some(st) =>
          && r.result == Success(BookingEcho(s.bookings[id].(status := st), true))
          && r.store.bookings == s.bookings[id := s.bookings[id].(status := st)]
          && r.store.payments == s.payments
    ensures WellFormed(s) ==> WellFormed(r.store)
    ensures Consistent(s) ==> Consistent(r.store)
    ensures Evolves(s, r.store)
  {
    match Lookup(s.bookings.Keys, id)
    case Some(code) => Reply(s, Failure(code))
    case None =>
      match status
      case Absent => Reply(s, Success(BookingEcho(s.bookings[id], false)))
      case Null => Reply(s, Failure(ServerError))
      case Given(name) =>
        match ParseStatus(name)
        case None => Reply(s, Failure(ServerError))
        case Some(st) =>
          var s' := SetBookingStatus(s, id, st);
          Reply(s', Success(BookingEcho(s'.bookings[id], true)))
  }

  /** No ownership or role check: whoever asks gets the same outcome. */
  lemma UpdateIgnoresRequester(s: Store, w1: Requester, w2: Requester, id: BookingId, status: StatusField)
    ensures UpdateBookingStatus(s, w1, id, status) == UpdateBookingStatus(s, w2, id, status)
  {
  }

  /** No source-state check: every status can be written over every status,
      by any requester; only that booking's status column moves, and the
      payment table is untouched. */
  lemma {:induction false} UpdateReachesAnyStatus(s: Store, who: Requester, id: BookingId, target: BookingStatus)
    requires IsUuid(id) && id in s.bookings
    ensures var r := UpdateBookingStatus(s, who, id, Given(StatusName(target)));
      && r.result.Success?
      && r.store.bookings[id].status == target
      && SameExceptStatus(s.bookings[id], r.store.bookings[id])
      && (forall k :: k in s.bookings && k != id ==> r.store.bookings[k] == s.bookings[k])
      && r.store.payments == s.payments
  {
    assert ParseStatus(StatusName(target)) == Some(target);
  }

  /** Writing a status and reading the booking back gives that status:
      the update and the enum's names are inverse to each other. */
  lemma {:induction false} UpdateThenRead(s: Store, who: Requester, id: BookingId, name: string)
    requires IsUuid(id) && id in s.bookings
    ensures var r := UpdateBookingStatus(s, who, id, Given(name));
      r.result.Success? <==> exists st :: StatusName(st) == name
    ensures var r := UpdateBookingStatus(s, who, id, Given(name));
      r.result.Success? ==> StatusName(r.store.bookings[id].status) == name
  {
    var r := UpdateBookingStatus(s, who, id, Given(name));
    if ParseStatus(name).Some? {
      assert StatusName(ParseStatus(name).value) == name;
    }
  }
}

=== FILE: booking_model.dfy ===
/** The Booking entity: one customer's reservation on a package for a date. */
module BookingModel {
  import opened Outcomes
  import opened Identity
  import opened Catalog

  type BookingId = string

  /** A calendar date as a day number: the column is date-only, so two
      travel dates are equal exactly when they fall on the same day. */
  type Day = int

  /** `numberOfTravelers` is a plain `number` column, which the database
      stores as a 32-bit signed `integer`: a value outside that range makes
      the INSERT fail. */
  predicate FitsInteger(n: int) {
    -0x8000_0000 <= n < 0x8000_0000
  }

  /** The four values the enum column admits. */
  datatype BookingStatus = Pending | Confirmed | Cancelled | Completed

  /** The value the column takes when an insert leaves the status out. */
  const DefaultBookingStatus: BookingStatus := Pending

  /** The persisted fields of a booking that the core reads or writes.
      `totalPrice` is stored on the booking, not derived from the package. */
  datatype Booking = Booking(
    user: UserId,
    travelPackage: PackageId,
    numberOfTravelers: int,
    totalPrice: Cents,
    status: BookingStatus,
    travelDate: Day)

  /** The string the enum column stores for each status. */
  function StatusName(st: BookingStatus): string {
    match st
    case Pending => "pending"
    case Confirmed => "confirmed"
    case Cancelled => "cancelled"
    case Completed => "completed"
  }

  /** Reads a status string the way the enum column does: only the four
      names are accepted, anything else is rejected by the database. */
  function ParseStatus(name: string): (r: Option<BookingStatus>)
    ensures forall st :: r == Some(st) <==> StatusName(st) == name
  {
    if name == "pending" then Some(Pending)
    else if name == "confirmed" then Some(Confirmed)
    else if name == "cancelled" then Some(Cancelled)
    else if name == "completed" then Some(Completed)
    else None
  }

  /** `repository.create` for a booking: an omitted status takes the column default. */
  function NewBooking(user: UserId, pkg: PackageId, travelers: int, total: Cents,
                      status: Option<BookingStatus>, date: Day): (b: Booking)
    ensures status.None? ==> b.status == Pending
    ensures status.Some? ==> b.status == status.value
    ensures b.user == user && b.travelPackage == pkg && b.travelDate == date
    ensures b.numberOfTravelers == travelers && b.totalPrice == total
  {
    Booking(user, pkg, travelers, total,
            match status case Some(st) => st case None => DefaultBookingStatus,
            date)
  }

  /** Everything except the status is fixed once a booking is written:
      no handler of the core rewrites owner, package, count, price or date. */
  predicate SameExceptStatus(b: Booking, b': Booking) {
    b' == b.(status := b'.status)
  }
}

=== FILE: catalog.dfy ===
/** The read-only package catalog the core consults. */
module Catalog {

  type PackageId = string

  /** Money in integer cents; the decimal columns hold two fraction digits. */
  type Cents = int

  /** The fields of a travel package that the core reads. */
  datatype TravelPackage = TravelPackage(price: Cents, maxTravelers: int, isAvailable: bool)
}

=== FILE: group_matching.dfy ===
/** The departure-group matcher: from the pending bookings of one package
    on one date, pick a group whose seats fit under a cap, by sorting on
    seat count and then packing first-fit. */
module GroupMatching {
  import opened Outcomes
  import opened Catalog
  import opened BookingModel
  import opened Uuid
  import opened Ledger

  /** A fetched booking, reduced to the id and seat count the matcher reads. */
  datatype Candidate = Candidate(id: BookingId, seats: int)

  /** A departure group. */
  datatype MatchResult = MatchResult(
    travelPackageId: PackageId,
    travelDate: Day,
    bookingIds: seq<BookingId>,
    seatsTotal: int,
    maxCapacity: int)

  function Ids(cs: seq<Candidate>): (ids: seq<BookingId>)
    ensures |ids| == |cs|
    ensures forall i :: 0 <= i < |cs| ==> ids[i] == cs[i].id
  {
    seq(|cs|, i requires 0 <= i < |cs| => cs[i].id)
  }

  /** Each id occurs at most once. */
  ghost predicate NoDuplicates(ids: seq<BookingId>) {
    forall id :: multiset(ids)[id] <= 1
  }

  lemma IdsAppend(a: seq<Candidate>, b: seq<Candidate>)
    ensures Ids(a + b) == Ids(a) + Ids(b)
  {
  }

  // ---------------------------------------------------------------------
  // The sort: ascending seat count, stable on ties.
  // ---------------------------------------------------------------------

  predicate SortedBySeats(s: seq<Candidate>) {
    forall i, j :: 0 <= i < j < |s| ==> s[i].seats <= s[j].seats
  }

  /** The candidates with exactly `k` seats, in the order they occur in `s`.
      A sort is stable when it keeps every one of these subsequences. */
  function WithSeats(s: seq<Candidate>, k: int): seq<Candidate> {
    if s == [] then [] else (if s[0].seats == k then [s[0]] else []) + WithSeats(s[1..], k)
  }

  /** Places `x` before the first candidate that has at least as many seats. */
  function Insert(x: Candidate, t: seq<Candidate>): seq<Candidate> {
    if t == [] then [x]
    else if x.seats <= t[0].seats then [x] + t
    else [t[0]] + Insert(x, t[1..])
  }

  /** Insertion adds `x` and loses nothing. */
  lemma {:induction false} InsertPermutes(x: Candidate, t: seq<Candidate>)
    ensures multiset(Insert(x, t)) == multiset(t) + multiset{x}
  {
    if t != [] && x.seats > t[0].seats {
      InsertPermutes(x, t[1..]);
      assert t == [t[0]] + t[1..];
    }
  }

  lemma ConsSorted(c: Candidate, t: seq<Candidate>)
    requires SortedBySeats(t)
    requires forall d :: d in t ==> c.seats <= d.seats
    ensures SortedBySeats([c] + t)
  {
    var r := [c] + t;
    forall i, j | 0 <= i < j < |r| ensures r[i].seats <= r[j].seats {
      if i == 0 {
        assert r[j] == t[j - 1];
      } else {
        assert r[i] == t[i - 1] && r[j] == t[j - 1];
      }
    }
  }

  lemma InsertMembers(x: Candidate, t: seq<Candidate>)
    ensures forall c :: c in Insert(x, t) ==> c == x || c in t
  {
    InsertPermutes(x, t);
    forall c | c in Insert(x, t) ensures c == x || c in t {
      assert c in multiset(Insert(x, t));
    }
  }

  lemma {:induction false} InsertSorted(x: Candidate, t: seq<Candidate>)
    requires SortedBySeats(t)
    ensures SortedBySeats(Insert(x, t))
  {
    if t == [] {
    } else if x.seats <= t[0].seats {
      ConsSorted(x, t);
    } else {
      var rest := Insert(x, t[1..]);
      InsertSorted(x, t[1..]);
      InsertMembers(x, t[1..]);
      assert forall d :: d in t[1..] ==> t[0].seats <= d.seats;
      ConsSorted(t[0], rest);
    }
  }

  lemma IdsCons(c: Candidate, t: seq<Candidate>)
    ensures multiset(Ids([c] + t)) == multiset{c.id} + multiset(Ids(t))
  {
    assert Ids([c] + t) == [c.id] + Ids(t);
  }

  lemma {:induction false} InsertIds(x: Candidate, t: seq<Candidate>)
    ensures multiset(Ids(Insert(x, t))) == multiset(Ids(t)) + multiset{x.id}
  {
    if t == [] {
      IdsCons(x, t);
    } else if x.seats <= t[0].seats {
      IdsCons(x, t);
    } else {
      InsertIds(x, t[1..]);
      IdsCons(t[0], Insert(x, t[1..]));
      IdsCons(t[0], t[1..]);
      assert [t[0]] + t[1..] == t;
    }
  }

  lemma WithSeatsCons(c: Candidate, t: seq<Candidate>, k: int)
    ensures WithSeats([c] + t, k) == (if c.seats == k then [c] else []) + WithSeats(t, k)
  {
    assert ([c] + t)[1..] == t;
  }

  /** Inserting `x` ahead of every candidate of `t` puts it first among
      those with its seat count, and disturbs no other seat count. */
  lemma {:induction false} InsertStable(x: Candidate, t: seq<Candidate>, k: int)
    ensures WithSeats(Insert(x, t), k) == (if x.seats == k then [x] else []) + WithSeats(t, k)
  {
    if t == [] {
      WithSeatsCons(x, [], k);
    } else if x.seats <= t[0].seats {
      WithSeatsCons(x, t, k);
    } else {
      InsertStable(x, t[1..], k);
      InsertStableStep(x, t[0], Insert(x, t[1..]), t[1..], k);
      assert [t[0]] + t[1..] == t;
    }
  }

  /** One step of `InsertStable`: a candidate with fewer seats than `x`
      passed over by the insertion never shares `x`'s seat count. */
  lemma InsertStableStep(x: Candidate, c: Candidate, rest: seq<Candidate>, tail: seq<Candidate>, k: int)
    requires c.seats < x.seats
    requires WithSeats(rest, k) == (if x.seats == k then [x] else []) + WithSeats(tail, k)
    ensures WithSeats([c] + rest, k) == (if x.seats == k then [x] else []) + WithSeats([c] + tail, k)
  {
    WithSeatsCons(c, rest, k);
    WithSeatsCons(c, tail, k);
    if x.seats == k {
      assert WithSeats([c] + rest, k) == WithSeats(rest, k);
    } else {
      assert WithSeats([c] + rest, k) == (if c.seats == k then [c] else []) + WithSeats(tail, k);
    }
  }

  /** `Array.prototype.sort` with comparator `a.seats - b.seats`, as an
      insertion sort; the lemmas below pin it down as the stable sort. */
  function SortBySeats(s: seq<Candidate>): seq<Candidate> {
    if s == [] then [] else Insert(s[0], SortBySeats(s[1..]))
  }

  /** The sorted candidates are a permutation of the fetched ones. */
  lemma {:induction false} SortBySeatsPermutes(s: seq<Candidate>)
    ensures multiset(SortBySeats(s)) == multiset(s)
  {
    if s != [] {
      SortBySeatsPermutes(s[1..]);
      InsertPermutes(s[0], SortBySeats(s[1..]));
      assert s == [s[0]] + s[1..];
    }
  }

  /** The order is ascending by seat count. */
  lemma {:induction false} SortBySeatsOrdered(s: seq<Candidate>)
    ensures SortedBySeats(SortBySeats(s))
  {
    if s != [] {
      SortBySeatsOrdered(s[1..]);
      InsertSorted(s[0], SortBySeats(s[1..]));
    }
  }

  /** The sorted candidates carry the same booking ids as the fetched ones. */
  lemma {:induction false} SortBySeatsIds(s: seq<Candidate>)
    ensures multiset(Ids(SortBySeats(s))) == multiset(Ids(s))
  {
    if s != [] {
      var rest := SortBySeats(s[1..]);
      calc {
        multiset(Ids(SortBySeats(s)));
        multiset(Ids(Insert(s[0], rest)));
        { InsertIds(s[0], rest); }
        multiset(Ids(rest)) + multiset{s[0].id};
        { SortBySeatsIds(s[1..]); }
        multiset(Ids(s[1..])) + multiset{s[0].id};
        { IdsCons(s[0], s[1..]); }
        multiset(Ids([s[0]] + s[1..]));
        { assert [s[0]] + s[1..] == s; }
        multiset(Ids(s));
      }
    }
  }

  /** The sort is stable: the comparator reads only seats, and candidates
      with equal seats keep their fetch order. */
  lemma {:induction false} SortBySeatsStable(s: seq<Candidate>, k: int)
    ensures WithSeats(SortBySeats(s), k) == WithSeats(s, k)
  {
    if s != [] {
      var rest := SortBySeats(s[1..]);
      SortBySeatsStable(s[1..], k);
      InsertStable(s[0], rest, k);
      assert s == [s[0]] + s[1..];
      WithSeatsCons(s[0], s[1..], k);
    }
  }

  // ---------------------------------------------------------------------
  // The greedy pass.
  // ---------------------------------------------------------------------

  /** The candidates among the first |take| of `s` whose flag is set, in order. */
  function Selected(s: seq<Candidate>, take: seq<bool>): seq<Candidate>
    requires |take| <= |s|
  {
    if take == [] then []
    else Selected(s, take[..|take| - 1]) + (if take[|take| - 1] then [s[|take| - 1]] else [])
  }

  function SumSeats(cs: seq<Candidate>): int {
    if cs == [] then 0 else SumSeats(cs[..|cs| - 1]) + cs[|cs| - 1].seats
  }

  /** The seats taken once the loop has decided `decided`: the value of
      `used` just before it visits candidate |decided|. */
  function Used(s: seq<Candidate>, decided: seq<bool>): int
    requires |decided| <= |s|
  {
    SumSeats(Selected(s, decided))
  }

  /** What a first-fit pass over `s` with early exit is, independent of how
      it is computed. `take[i]` records whether candidate `i` was added; the
      pass visited exactly |take| candidates. A visited candidate is added
      exactly when it fits on top of the seats already taken; the pass never
      stops while the seats taken differ from the cap; and it stops before
      the end only once the seats taken equal the cap. */
  ghost predicate GreedyRun(s: seq<Candidate>, cap: int, take: seq<bool>) {
    && |take| <= |s|
    && AddsExactlyFitting(s, cap, take)
    && NoEarlyStop(s, cap, take)
    && (|take| == |s| || (0 < |take| && Used(s, take) == cap))
  }

  /** The loop's state: which visited candidates were added, the added
      candidates, the running `used`, and whether the loop broke out. */
  datatype Pass = Pass(take: seq<bool>, chosen: seq<Candidate>, used: int, stopped: bool)

  /** Every visited candidate was added exactly when it fitted. */
  ghost predicate AddsExactlyFitting(s: seq<Candidate>, cap: int, take: seq<bool>)
    requires |take| <= |s|
  {
    forall i :: 0 <= i < |take| ==> (take[i] <==> Used(s, take[..i]) + s[i].seats <= cap)
  }

  /** The seats taken never equalled the cap before the last visit. */
  ghost predicate NoEarlyStop(s: seq<Candidate>, cap: int, take: seq<bool>)
    requires |take| <= |s|
  {
    forall i :: 0 < i < |take| ==> Used(s, take[..i]) != cap
  }

  lemma SelectedExtend(s: seq<Candidate>, take: seq<bool>, b: bool)
    requires |take| < |s|
    ensures Selected(s, take + [b]) == Selected(s, take) + (if b then [s[|take|]] else [])
  {
    assert (take + [b])[..|take|] == take;
  }

  lemma SumSeatsExtend(cs: seq<Candidate>, c: Candidate)
    ensures SumSeats(cs + [c]) == SumSeats(cs) + c.seats
  {
    assert (cs + [c])[..|cs|] == cs;
  }

  /** Deciding the next candidate by whether it fits keeps the add rule. */
  lemma AddsExactlyFittingExtend(s: seq<Candidate>, cap: int, take: seq<bool>, b: bool)
    requires |take| < |s| && AddsExactlyFitting(s, cap, take)
    requires b <==> Used(s, take) + s[|take|].seats <= cap
    ensures AddsExactlyFitting(s, cap, take + [b])
  {
    var t := take + [b];
    forall i | 0 <= i < |t|
      ensures t[i] <==> Used(s, t[..i]) + s[i].seats <= cap
    {
      if i < |take| {
        assert t[..i] == take[..i];
      } else {
        assert t[..i] == take;
      }
    }
  }

  /** Going on past a total other than the cap keeps the stop rule. */
  lemma NoEarlyStopExtend(s: seq<Candidate>, cap: int, take: seq<bool>, b: bool)
    requires |take| < |s| && NoEarlyStop(s, cap, take)
    requires |take| == 0 || Used(s, take) != cap
    ensures NoEarlyStop(s, cap, take + [b])
  {
    var t := take + [b];
    forall i | 0 < i < |t|
      ensures Used(s, t[..i]) != cap
    {
      if i < |take| {
        assert t[..i] == take[..i];
      } else {
        assert t[..i] == take;
      }
    }
  }

  /** The state of the `for … of` loop after it has been offered the first
      `n` candidates. */
  function Walk(s: seq<Candidate>, cap: int, n: nat): Pass
    requires n <= |s|
  {
    if n == 0 then Pass([], [], 0, false)
    else
      var p := Walk(s, cap, n - 1);
      if p.stopped then p
      else
        var c := s[n - 1];
        var fits := p.used + c.seats <= cap;
        var used := if fits then p.used + c.seats else p.used;
        Pass(p.take + [fits], if fits then p.chosen + [c] else p.chosen, used, used == cap)
  }

  /** The loop invariant after `n` visits: the flags record exactly the
      fit test, `chosen` and `used` follow the flags, and the loop has broken
      out exactly when it has visited at least one candidate and `used`
      equals the cap, whether or not that visit added anything. */
  ghost predicate LoopInvariant(s: seq<Candidate>, cap: int, n: nat, p: Pass)
    requires n <= |s|
  {
    && |p.take| <= n
    && p.chosen == Selected(s, p.take) && p.used == SumSeats(p.chosen)
    && AddsExactlyFitting(s, cap, p.take)
    && NoEarlyStop(s, cap, p.take)
    && (p.stopped <==> 0 < |p.take| && p.used == cap)
    && (!p.stopped ==> |p.take| == n)
    && (p.chosen != [] ==> p.used <= cap)
  }

  /** One iteration of the loop keeps the invariant. */
  lemma WalkStep(s: seq<Candidate>, cap: int, n: nat)
    requires 0 < n <= |s| && LoopInvariant(s, cap, n - 1, Walk(s, cap, n - 1))
    ensures LoopInvariant(s, cap, n, Walk(s, cap, n))
  {
    var p := Walk(s, cap, n - 1);
    if !p.stopped {
      var c := s[n - 1];
      var fits := p.used + c.seats <= cap;
      var used := if fits then p.used + c.seats else p.used;
      assert Walk(s, cap, n) == Pass(p.take + [fits], if fits then p.chosen + [c] else p.chosen, used, used == cap);
      AddsExactlyFittingExtend(s, cap, p.take, fits);
      NoEarlyStopExtend(s, cap, p.take, fits);
      SelectedExtend(s, p.take, fits);
      SumSeatsExtend(p.chosen, c);
    }
  }

  lemma {:induction false} WalkFacts(s: seq<Candidate>, cap: int, n: nat)
    requires n <= |s|
    ensures LoopInvariant(s, cap, n, Walk(s, cap, n))
  {
    if n > 0 {
      WalkFacts(s, cap, n - 1);
      WalkStep(s, cap, n);
    }
  }

  /** The whole pass over the sorted candidates. */
  function Group(s: seq<Candidate>, cap: int): (g: Pass)
    ensures GreedyRun(s, cap, g.take)
    ensures g.chosen == Selected(s, g.take) && g.used == SumSeats(g.chosen)
    ensures g.chosen != [] ==> g.used <= cap
  {
    WalkFacts(s, cap, |s|);
    var g := Walk(s, cap, |s|);
    assert g.take[..|g.take|] == g.take;
    g
  }

  lemma TakeRule(s: seq<Candidate>, cap: int, take: seq<bool>, i: nat)
    requires GreedyRun(s, cap, take) && i < |take|
    ensures take[i] <==> Used(s, take[..i]) + s[i].seats <= cap
  {
  }

  lemma PrefixStep(t1: seq<bool>, t2: seq<bool>, j: nat)
    requires j < |t1| && j < |t2| && t1[..j] == t2[..j] && t1[j] == t2[j]
    ensures t1[..j + 1] == t2[..j + 1]
  {
    assert t1[..j + 1] == t1[..j] + [t1[j]];
    assert t2[..j + 1] == t2[..j] + [t2[j]];
  }

  lemma {:induction false} GreedyRunPrefixAgree(s: seq<Candidate>, cap: int, t1: seq<bool>, t2: seq<bool>, k: nat)
    requires GreedyRun(s, cap, t1) && GreedyRun(s, cap, t2)
    requires k <= |t1| && k <= |t2|
    ensures t1[..k] == t2[..k]
  {
    if k > 0 {
      var j := k - 1;
      GreedyRunPrefixAgree(s, cap, t1, t2, j);
      TakeRule(s, cap, t1, j);
      TakeRule(s, cap, t2, j);
      PrefixStep(t1, t2, j);
    }
  }

  /** GreedyRun admits one run only: the characterisation pins down
      which candidates the pass visits and which it adds. */
  lemma {:induction false} GreedyRunUnique(s: seq<Candidate>, cap: int, t1: seq<bool>, t2: seq<bool>)
    requires GreedyRun(s, cap, t1) && GreedyRun(s, cap, t2)
    ensures t1 == t2
  {
    var m := if |t1| <= |t2| then |t1| else |t2|;
    GreedyRunPrefixAgree(s, cap, t1, t2, m);
    assert t1[..|t1|] == t1 && t2[..|t2|] == t2;
  }

  // ---------------------------------------------------------------------
  // What the selected group is made of.
  // ---------------------------------------------------------------------

  /** The added candidates are a subsequence of the visited ones: they come
      from `s`, and no candidate appears more often than it does there. */
  lemma {:induction false} SelectedWithin(s: seq<Candidate>, take: seq<bool>)
    requires |take| <= |s|
    ensures multiset(Selected(s, take)) <= multiset(s)
    ensures multiset(Ids(Selected(s, take))) <= multiset(Ids(s))
  {
    SelectedWithinPrefix(s, take);
    var n := |take|;
    assert multiset(s[..n]) <= multiset(s) by {
      assert s == s[..n] + s[n..];
    }
    assert multiset(Ids(s[..n])) <= multiset(Ids(s)) by {
      assert s == s[..n] + s[n..];
      IdsAppend(s[..n], s[n..]);
    }
  }

  lemma {:induction false} SelectedWithinPrefix(s: seq<Candidate>, take: seq<bool>)
    requires |take| <= |s|
    ensures multiset(Selected(s, take)) <= multiset(s[..|take|])
    ensures multiset(Ids(Selected(s, take))) <= multiset(Ids(s[..|take|]))
    decreases |take|
  {
    if take != [] {
      var n := |take|;
      var front := take[..n - 1];
      SelectedWithinPrefix(s, front);
      var last := if take[n - 1] then [s[n - 1]] else [];
      assert Selected(s, take) == Selected(s, front) + last;
      assert s[..n] == s[..n - 1] + [s[n - 1]];
      IdsAppend(Selected(s, front), last);
      IdsAppend(s[..n - 1], [s[n - 1]]);
    }
  }

  lemma NoDuplicatesSub(a: seq<BookingId>, b: seq<BookingId>)
    requires multiset(a) <= multiset(b) && NoDuplicates(b)
    ensures NoDuplicates(a)
  {
    forall id ensures multiset(a)[id] <= 1 {
      assert multiset(a)[id] <= multiset(b)[id];
    }
  }

  // ---------------------------------------------------------------------
  // findMatches.
  // ---------------------------------------------------------------------

  /** `maxCapacityOverride ?? travelPackage.maxTravelers`: any supplied
      override wins, zero included; only an absent one falls back. */
  function Capacity(pkg: TravelPackage, capOverride: Option<int>): (cap: int)
    ensures capOverride.Some? ==> cap == capOverride.value
    ensures capOverride.None? ==> cap == pkg.maxTravelers
  {
    match capOverride
    case Some(c) => c
    case None => pkg.maxTravelers
  }

  /** findMatches, with the repository fetch of pending bookings for the
      package and date given as `fetched`, in repository order. The package
      is looked up by the caller's id: an id the database cannot read as a
      uuid makes the query throw, so the call rejects (`Failure`); an
      unknown package, an empty fetch and an empty group give `null`. */
  function FindMatches(packages: map<PackageId, TravelPackage>, packageId: PackageId, travelDate: Day,
                       capOverride: Option<int>, fetched: seq<Candidate>): (r: Result<Option<MatchResult>, Code>)
    ensures r.Failure? <==> !IsUuid(packageId)
    ensures r.Failure? ==> r.error == ServerError
    ensures IsUuid(packageId) && packageId !in packages ==> r == Success(None)
    ensures IsUuid(packageId) && fetched == [] ==> r == Success(None)
    ensures r.Success? && r.value.Some? ==>
      && packageId in packages
      && r.value.value.travelPackageId == packageId
      && r.value.value.travelDate == travelDate
      && r.value.value.maxCapacity == Capacity(packages[packageId], capOverride)
      && |r.value.value.bookingIds| > 0
      && r.value.value.seatsTotal <= r.value.value.maxCapacity
    ensures r.Success? && r.value.Some? ==>
      var g := Group(SortBySeats(fetched), r.value.value.maxCapacity);
      && r.value.value.bookingIds == Ids(g.chosen)
      && r.value.value.seatsTotal == SumSeats(g.chosen)
    ensures r == Success(None) && packageId in packages && fetched != [] ==>
      Group(SortBySeats(fetched), Capacity(packages[packageId], capOverride)).chosen == []
  {
    match Lookup(packages.Keys, packageId)
    case Some(ServerError) => Failure(ServerError)
    case Some(_) => Success(None)
    case None =>
      var cap := Capacity(packages[packageId], capOverride);
      if |fetched| == 0 then Success(None)
      else
        var g := Group(SortBySeats(fetched), cap);
        if |g.chosen| == 0 then Success(None)
        else Success(Some(MatchResult(packageId, travelDate, Ids(g.chosen), g.used, cap)))
  }

  // ---------------------------------------------------------------------
  // The fetch, and what it makes of the group.
  // ---------------------------------------------------------------------

  /** The fetch's filter: same package, same day, status pending. */
  predicate IsCandidate(b: Booking, packageId: PackageId, travelDate: Day) {
    b.travelPackage == packageId && b.travelDate == travelDate && b.status == Pending
  }

  /** `fetched` lists every pending booking of the package on the date,
      each once, with its traveller count as its seats. */
  ghost predicate FetchedFrom(bookings: map<BookingId, Booking>, packageId: PackageId, travelDate: Day,
                              fetched: seq<Candidate>) {
    && NoDuplicates(Ids(fetched))
    && (forall c :: c in fetched ==>
          c.id in bookings && IsCandidate(bookings[c.id], packageId, travelDate)
          && c.seats == bookings[c.id].numberOfTravelers)
    && (forall id :: id in bookings && IsCandidate(bookings[id], packageId, travelDate) ==> id in Ids(fetched))
  }

  /** The traveller counts of the given bookings, added up. */
  function SeatsOf(bookings: map<BookingId, Booking>, ids: seq<BookingId>): int
    requires forall id :: id in ids ==> id in bookings
  {
    if ids == [] then 0 else SeatsOf(bookings, ids[..|ids| - 1]) + bookings[ids[|ids| - 1]].numberOfTravelers
  }

  lemma {:induction false} SumSeatsIsSeatsOf(bookings: map<BookingId, Booking>, cs: seq<Candidate>)
    requires forall c :: c in cs ==> c.id in bookings && c.seats == bookings[c.id].numberOfTravelers
    ensures forall id :: id in Ids(cs) ==> id in bookings
    ensures SumSeats(cs) == SeatsOf(bookings, Ids(cs))
  {
    if cs != [] {
      var n := |cs|;
      assert forall c :: c in cs[..n - 1] ==> c in cs;
      SumSeatsIsSeatsOf(bookings, cs[..n - 1]);
      assert Ids(cs)[..n - 1] == Ids(cs[..n - 1]);
      assert cs[n - 1] in cs;
    }
  }

  /** A sub-collection of a complete fetch is made of distinct pending
      bookings of the package and date, and its seats are their travellers. */
  lemma {:induction false} SubFetchFacts(bookings: map<BookingId, Booking>, packageId: PackageId, travelDate: Day,
                                         fetched: seq<Candidate>, chosen: seq<Candidate>)
    requires FetchedFrom(bookings, packageId, travelDate, fetched)
    requires multiset(chosen) <= multiset(fetched) && multiset(Ids(chosen)) <= multiset(Ids(fetched))
    ensures NoDuplicates(Ids(chosen))
    ensures forall id :: id in Ids(chosen) ==> id in bookings && IsCandidate(bookings[id], packageId, travelDate)
    ensures SumSeats(chosen) == SeatsOf(bookings, Ids(chosen))
  {
    NoDuplicatesSub(Ids(chosen), Ids(fetched));
    forall c | c in chosen
      ensures c.id in bookings && c.seats == bookings[c.id].numberOfTravelers
      ensures IsCandidate(bookings[c.id], packageId, travelDate)
    {
      assert c in multiset(fetched);
    }
    forall id | id in Ids(chosen)
      ensures id in bookings && IsCandidate(bookings[id], packageId, travelDate)
    {
      var i :| 0 <= i < |chosen| && Ids(chosen)[i] == id;
      assert chosen[i] in chosen;
    }
    SumSeatsIsSeatsOf(bookings, chosen);
  }

  /** Every booking in a group was pending, of this package and on this
      day, when it was fetched; no booking is listed twice; and the seat
      total is the traveller count of exactly the listed bookings. */
  lemma MatchedBookingsArePending(bookings: map<BookingId, Booking>, packages: map<PackageId, TravelPackage>,
                                  packageId: PackageId, travelDate: Day, capOverride: Option<int>,
                                  fetched: seq<Candidate>)
    requires FetchedFrom(bookings, packageId, travelDate, fetched)
    requires FindMatches(packages, packageId, travelDate, capOverride, fetched).Success?
    requires FindMatches(packages, packageId, travelDate, capOverride, fetched).value.Some?
    ensures var m := FindMatches(packages, packageId, travelDate, capOverride, fetched).value.value;
      && NoDuplicates(m.bookingIds)
      && (forall id :: id in m.bookingIds ==> id in bookings && IsCandidate(bookings[id], packageId, travelDate))
      && m.seatsTotal == SeatsOf(bookings, m.bookingIds)
  {
    var m := FindMatches(packages, packageId, travelDate, capOverride, fetched).value.value;
    var sorted := SortBySeats(fetched);
    SortBySeatsIds(fetched);
    SortBySeatsPermutes(fetched);
    var g := Group(sorted, m.maxCapacity);
    SelectedWithin(sorted, g.take);
    SubFetchFacts(bookings, packageId, travelDate, fetched, g.chosen);
  }

  // ---------------------------------------------------------------------
  // Worked examples.
  // ---------------------------------------------------------------------

  /** Reads a worked example's result off its sort and its pass. */
  lemma ExampleOutcome(packages: map<PackageId, TravelPackage>, packageId: PackageId, travelDate: Day,
                       capOverride: Option<int>, fetched: seq<Candidate>, chosen: seq<Candidate>, used: int)
    requires IsUuid(packageId) && packageId in packages && fetched != [] && chosen != []
    requires var g := Group(SortBySeats(fetched), Capacity(packages[packageId], capOverride));
      g.chosen == chosen && g.used == used
    ensures FindMatches(packages, packageId, travelDate, capOverride, fetched)
         == Success(Some(MatchResult(packageId, travelDate, Ids(chosen), used, Capacity(packages[packageId], capOverride))))
  {
  }

  /** One insertion step of the sort. */
  lemma SortCons(x: Candidate, t: seq<Candidate>)
    ensures SortBySeats([x] + t) == Insert(x, SortBySeats(t))
  {
    assert ([x] + t)[1..] == t;
  }

  /** One iteration of the loop that does not break. */
  lemma WalkAdvance(s: seq<Candidate>, cap: int, n: nat, take: seq<bool>, chosen: seq<Candidate>, used: int)
    requires n < |s| && Walk(s, cap, n) == Pass(take, chosen, used, false)
    ensures var fits := used + s[n].seats <= cap;
      var u := if fits then used + s[n].seats else used;
      Walk(s, cap, n + 1) == Pass(take + [fits], if fits then chosen + [s[n]] else chosen, u, u == cap)
  {
  }

  /** Once the loop has broken, later candidates are never looked at. */
  lemma WalkHalted(s: seq<Candidate>, cap: int, n: nat)
    requires n < |s| && Walk(s, cap, n).stopped
    ensures Walk(s, cap, n + 1) == Walk(s, cap, n)
  {
  }

  lemma IdsOfOne(a: Candidate)
    ensures Ids([a]) == [a.id]
  {
  }

  lemma IdsOfThree(a: Candidate, b: Candidate, c: Candidate)
    ensures Ids([a, b, c]) == [a.id, b.id, c.id]
  {
  }

  /** The sort on four candidates whose seat counts rank third, first, second, fourth. */
  lemma SortFour(a: Candidate, b: Candidate, c: Candidate, d: Candidate)
    requires c.seats < a.seats < b.seats < d.seats
    ensures SortBySeats([a, b, c, d]) == [c, a, b, d]
  {
    SortCons(d, []);
    assert [d] + [] == [d];
    SortCons(c, [d]);
    assert [c] + [d] == [c, d];
    SortCons(b, [c, d]);
    assert [b] + [c, d] == [b, c, d];
    assert Insert(b, [d]) == [b, d];
    SortCons(a, [b, c, d]);
    assert [a] + [b, c, d] == [a, b, c, d];
    assert Insert(a, [b, d]) == [a, b, d];
  }

  /** The pass over four ascending candidates whose first three fill the cap exactly. */
  lemma PassFour(c: Candidate, a: Candidate, b: Candidate, d: Candidate, cap: int)
    requires 0 <= c.seats && 0 <= a.seats && c.seats + a.seats < cap && c.seats + a.seats + b.seats == cap
    ensures var g := Group([c, a, b, d], cap);
      g.chosen == [c, a, b] && g.used == cap
  {
    var sorted := [c, a, b, d];
    WalkAdvance(sorted, cap, 0, [], [], 0);
    WalkAdvance(sorted, cap, 1, [true], [c], c.seats);
    WalkAdvance(sorted, cap, 2, [true, true], [c, a], c.seats + a.seats);
    WalkHalted(sorted, cap, 3);
  }

  /** Seats 3, 5, 2, 6 under a cap of 10, for a package found by the nil uuid:
      sorted 2, 3, 5, 6, the pass adds 2, 3 and 5, reaches 10 exactly and
      stops before the 6. */
  lemma ExamplePerfectPack()
    ensures var pkgs := map[NilUuid := TravelPackage(100, 10, true)];
      var fetched := [Candidate("a", 3), Candidate("b", 5), Candidate("c", 2), Candidate("d", 6)];
      FindMatches(pkgs, NilUuid, 7, None, fetched) == Success(Some(MatchResult(NilUuid, 7, ["c", "a", "b"], 10, 10)))
  {
    NilIsUuid();
    IdsOfThree(Candidate("c", 2), Candidate("a", 3), Candidate("b", 5));
    SortFour(Candidate("a", 3), Candidate("b", 5), Candidate("c", 2), Candidate("d", 6));
    PassFour(Candidate("c", 2), Candidate("a", 3), Candidate("b", 5), Candidate("d", 6), 10);
    ExampleOutcome(map[NilUuid := TravelPackage(100, 10, true)], NilUuid, 7, None,
                   [Candidate("a", 3), Candidate("b", 5), Candidate("c", 2), Candidate("d", 6)],
                   [Candidate("c", 2), Candidate("a", 3), Candidate("b", 5)], 10);
  }

  /** The sort keeps two candidates in order when the first has no more seats. */
  lemma SortTwo(a: Candidate, b: Candidate)
    requires a.seats <= b.seats
    ensures SortBySeats([a, b]) == [a, b]
  {
    SortCons(b, []);
    assert [b] + [] == [b];
    SortCons(a, [b]);
    assert [a] + [b] == [a, b];
  }

  /** The pass over two candidates where only the first fits. */
  lemma PassTwoSkip(a: Candidate, b: Candidate, cap: int)
    requires 0 <= a.seats < cap && cap < a.seats + b.seats
    ensures var g := Group([a, b], cap);
      g.chosen == [a] && g.used == a.seats
  {
    WalkAdvance([a, b], cap, 0, [], [], 0);
    WalkAdvance([a, b], cap, 1, [true], [a], a.seats);
  }

  /** Seats 7, 7 under a cap of 10: the first is added, the second would
      make 14 and is skipped; the group is the first booking alone. */
  lemma ExampleSecondSkipped()
    ensures var pkgs := map[NilUuid := TravelPackage(100, 10, true)];
      var fetched := [Candidate("a", 7), Candidate("b", 7)];
      FindMatches(pkgs, NilUuid, 7, None, fetched) == Success(Some(MatchResult(NilUuid, 7, ["a"], 7, 10)))
  {
    NilIsUuid();
    SortTwo(Candidate("a", 7), Candidate("b", 7));
    PassTwoSkip(Candidate("a", 7), Candidate("b", 7), 10);
    IdsOfOne(Candidate("a", 7));
    ExampleOutcome(map[NilUuid := TravelPackage(100, 10, true)], NilUuid, 7, None,
                   [Candidate("a", 7), Candidate("b", 7)], [Candidate("a", 7)], 7);
  }

  /** An override of 0 is a supplied value: with positive seat counts the
      first candidate does not fit, `used` already equals the cap, the
      loop breaks, and nothing is matched. */
  lemma ExampleZeroOverride()
    ensures var pkgs := map[NilUuid := TravelPackage(100, 10, true)];
      FindMatches(pkgs, NilUuid, 7, Some(0), [Candidate("a", 2), Candidate("b", 3)]) == Success(None)
  {
    NilIsUuid();
    SortTwo(Candidate("a", 2), Candidate("b", 3));
    PassTwoFull(Candidate("a", 2), Candidate("b", 3), 0);
  }

  /** The pass over two candidates when the cap is already met: nothing is chosen. */
  lemma PassTwoFull(a: Candidate, b: Candidate, cap: int)
    requires cap == 0 && 0 < a.seats
    ensures Group([a, b], cap).chosen == []
  {
    WalkAdvance([a, b], cap, 0, [], [], 0);
    WalkHalted([a, b], cap, 1);
  }

  /** A package id the database cannot read as a uuid makes the lookup
      throw: the call rejects even when the map holds that very string. */
  lemma ExampleMalformedPackageId()
    ensures FindMatches(map["abc" := TravelPackage(100, 10, true)], "abc", 7, None, [Candidate("a", 3)])
         == Failure(ServerError)
  {
    assert !HexGroups("abc", Groups);
  }
}

=== FILE: identity.dfy ===
/** The authenticated requester, as the `auth` middleware leaves it on the request. */
module Identity {

  type UserId = string

  /** The decoded token: a user id and a free-form role string. */
  datatype Requester = Requester(userId: UserId, role: string)

  /** The handlers compare the role string with the literal "admin". */
  predicate IsAdmin(who: Requester) {
    who.role == "admin"
  }
}

=== FILE: ledger.dfy ===
/** The booking and payment tables, as immutable maps from id to record,
    with the constraints the schema places on them. */
module Ledger {
  import opened Outcomes
  import opened Identity
  import opened Catalog
  import opened BookingModel
  import opened PaymentModel
  import opened Uuid

  datatype Store = Store(bookings: map<BookingId, Booking>, payments: map<PaymentId, Payment>)

  /** The error statuses the core's handlers answer with: 400, 403, 404 and 500. */
  datatype Code = BadRequest | Forbidden | NotFound | ServerError

  /** What a handler leaves behind. The saves are sequential and outside any
      transaction, so a failure after a save still carries that save's effect. */
  datatype Reply<+T> = Reply(store: Store, result: Result<T, Code>)

  /** The schema's constraints on the payment table: the join column is a
      foreign key into bookings and, being one-to-one, is unique. */
  ghost predicate WellFormed(s: Store) {
    && (forall pid :: pid in s.payments ==> s.payments[pid].booking in s.bookings)
    && (forall p, q :: p in s.payments && q in s.payments && s.payments[p].booking == s.payments[q].booking ==> p == q)
  }

  /** No payment row references this booking yet. */
  predicate Unpaid(s: Store, bid: BookingId) {
    forall pid :: pid in s.payments ==> s.payments[pid].booking != bid
  }

  /** The payment row joined to a booking, found by the join column. */
  function PaymentOf(s: Store, bid: BookingId): (r: Option<PaymentId>)
    requires WellFormed(s)
    ensures r.None? <==> Unpaid(s, bid)
    ensures r.Some? ==> r.value in s.payments && s.payments[r.value].booking == bid
  {
    if exists pid :: pid in s.payments && s.payments[pid].booking == bid then
      var pid :| pid in s.payments && s.payments[pid].booking == bid;
      Some(pid)
    else
      None
  }

  /** `findOne({ where: { id } })` on a table keyed by a client-supplied
      id: an id the database cannot read as a uuid makes the query throw
      (500); a well-formed id that matches no row finds nothing (404). */
  function Lookup(keys: set<string>, id: string): (r: Option<Code>)
    ensures r.None? <==> IsUuid(id) && id in keys
    ensures r == Some(ServerError) <==> !IsUuid(id)
    ensures r == Some(NotFound) <==> IsUuid(id) && id !in keys
  {
    if !IsUuid(id) then Some(ServerError)
    else if id !in keys then Some(NotFound)
    else None
  }

  /** Rows are only ever added, and each row keeps the columns that are
      fixed at insert: a booking everything but its status, a payment its
      booking and its amount. */
  ghost predicate Evolves(s: Store, s': Store) {
    && s.bookings.Keys <= s'.bookings.Keys
    && s.payments.Keys <= s'.payments.Keys
    && (forall b :: b in s.bookings ==> SameExceptStatus(s.bookings[b], s'.bookings[b]))
    && (forall p :: p in s.payments ==>
          s'.payments[p].booking == s.payments[p].booking && s'.payments[p].amount == s.payments[p].amount)
  }

  /** Every payment charges exactly its booking's total price. */
  ghost predicate AmountsMatch(s: Store)
    requires WellFormed(s)
  {
    forall p :: p in s.payments ==> s.payments[p].amount == s.bookings[s.payments[p].booking].totalPrice
  }

  /** The schema's constraints, and every payment for its booking's total. */
  ghost predicate Consistent(s: Store) {
    WellFormed(s) && AmountsMatch(s)
  }

  lemma {:induction false} EvolvesTransitive(s1: Store, s2: Store, s3: Store)
    requires Evolves(s1, s2) && Evolves(s2, s3)
    ensures Evolves(s1, s3)
  {
    forall b | b in s1.bookings
      ensures SameExceptStatus(s1.bookings[b], s3.bookings[b])
    {
      assert SameExceptStatus(s2.bookings[b], s3.bookings[b]);
    }
  }

  /** An INSERT into bookings; a primary key already in use, a user or a
      package that does not exist (both join columns are foreign keys), or a
      traveller count outside the range of the 32-bit column, is rejected.
      `users` and `packages` are the key sets of those two tables. */
  function InsertBooking(s: Store, users: set<UserId>, packages: set<PackageId>, id: BookingId, b: Booking)
    : (r: Option<Store>)
    ensures r.Some? <==>
      && id !in s.bookings && b.user in users && b.travelPackage in packages
      && FitsInteger(b.numberOfTravelers)
    ensures r.Some? ==> r.value.bookings == s.bookings[id := b] && r.value.payments == s.payments
    ensures r.Some? ==> Evolves(s, r.value)
    ensures r.Some? && WellFormed(s) ==> WellFormed(r.value)
    ensures r.Some? && Consistent(s) ==> Consistent(r.value)
  {
    if id in s.bookings || b.user !in users || b.travelPackage !in packages || !FitsInteger(b.numberOfTravelers)
    then None
    else Some(s.(bookings := s.bookings[id := b]))
  }

  /** An INSERT into payments; a primary key already in use, a booking that
      does not exist (the join column is a foreign key), or a second payment
      for the same booking (the join column is unique) is rejected. */
  function InsertPayment(s: Store, id: PaymentId, p: Payment): (r: Option<Store>)
    ensures r.Some? <==> id !in s.payments && p.booking in s.bookings && Unpaid(s, p.booking)
    ensures r.Some? ==> r.value.payments == s.payments[id := p] && r.value.bookings == s.bookings
    ensures r.Some? ==> Evolves(s, r.value)
    ensures r.Some? && WellFormed(s) ==> WellFormed(r.value)
    ensures r.Some? && Consistent(s) && p.amount == s.bookings[p.booking].totalPrice ==> Consistent(r.value)
  {
    if id in s.payments || p.booking !in s.bookings || !Unpaid(s, p.booking) then None
    else Some(s.(payments := s.payments[id := p]))
  }

  /** An UPDATE of a booking's status, the only booking column the core rewrites. */
  function SetBookingStatus(s: Store, bid: BookingId, st: BookingStatus): (s': Store)
    requires bid in s.bookings
    ensures s'.bookings.Keys == s.bookings.Keys && s'.payments == s.payments
    ensures s'.bookings[bid].status == st && SameExceptStatus(s.bookings[bid], s'.bookings[bid])
    ensures forall k :: k in s.bookings && k != bid ==> s'.bookings[k] == s.bookings[k]
    ensures Evolves(s, s')
    ensures WellFormed(s) ==> WellFormed(s')
    ensures Consistent(s) ==> Consistent(s')
  {
    s.(bookings := s.bookings[bid := s.bookings[bid].(status := st)])
  }

  /** An UPDATE of a loaded payment row whose join column and amount the
      handler left alone: only status, transaction id and provider move. */
  function RewritePayment(s: Store, pid: PaymentId, p: Payment): (s': Store)
    requires pid in s.payments && p.booking == s.payments[pid].booking && p.amount == s.payments[pid].amount
    ensures s'.payments == s.payments[pid := p] && s'.bookings == s.bookings
    ensures Evolves(s, s')
    ensures WellFormed(s) ==> WellFormed(s')
    ensures Consistent(s) ==> Consistent(s')
  {
    s.(payments := s.payments[pid := p])
  }
}

=== FILE: lifecycle.dfy ===
/** The booking and payment handlers served one after another against one
    store, and what holds of every store a sequence of requests can reach. */
module Lifecycle {
  import opened Outcomes
  import opened Identity
  import opened Catalog
  import opened BookingModel
  import opened PaymentModel
  import opened Ledger
  import opened Uuid
  import opened BookingController
  import opened PaymentController

  /** What stays fixed while requests are served: the package catalog, the
      user table's keys, and whether a gateway key was configured. */
  datatype Env = Env(packages: map<PackageId, TravelPackage>, users: set<UserId>, configured: bool)

  /** One request to one of the core's handlers, with the values the
      handler would draw from outside (fresh keys, gateway outcomes). */
  datatype Request =
    | CreateBookingCall(who: Requester, booking: CreateBookingRequest, newId: BookingId)
    | UpdateStatusCall(who: Requester, id: BookingId, status: StatusField)
    | IntentCall(bookingId: BookingId, gatewayOk: bool)
    | ConfirmCall(confirm: ConfirmRequest, retrieval: Retrieval, newId: PaymentId)
    | AutoPayCall(who: Requester, bookingId: BookingId, txn: string, newId: PaymentId)
    | RefundCall(who: Requester, paymentId: PaymentId, refundOk: bool)

  /** The store a request leaves behind, whether it succeeded or not. */
  function Step(env: Env, s: Store, req: Request): (s': Store)
    requires WellFormed(s)
    ensures WellFormed(s')
    ensures Consistent(s) ==> Consistent(s')
    ensures Evolves(s, s')
  {
    match req
    case CreateBookingCall(who, body, newId) => CreateBooking(s, env.packages, env.users, who, body, newId).store
    case UpdateStatusCall(who, id, status) => UpdateBookingStatus(s, who, id, status).store
    case IntentCall(bid, ok) => CreatePaymentIntent(s, bid, env.configured, ok).store
    case ConfirmCall(body, retrieval, newId) => ConfirmPayment(s, body, env.configured, retrieval, newId).store
    case AutoPayCall(who, bid, txn, newId) => ProcessAutoPayment(s, who, bid, txn, newId).store
    case RefundCall(who, pid, ok) => ProcessRefund(s, who, pid, env.configured, ok).store
  }

  /** The requests served in order. */
  function Run(env: Env, s: Store, reqs: seq<Request>): Store
    requires WellFormed(s)
    decreases |reqs|
  {
    if reqs == [] then s else Run(env, Step(env, s, reqs[0]), reqs[1..])
  }

  /** Every store a run reaches keeps the schema's constraints, charges
      every payment at its booking's total if the start did, and keeps
      every row of the start with the columns fixed at insert unchanged. */
  lemma {:induction false} RunInvariant(env: Env, s: Store, reqs: seq<Request>)
    requires WellFormed(s)
    ensures WellFormed(Run(env, s, reqs))
    ensures Consistent(s) ==> Consistent(Run(env, s, reqs))
    ensures Evolves(s, Run(env, s, reqs))
    decreases |reqs|
  {
    if reqs != [] {
      var s1 := Step(env, s, reqs[0]);
      RunInvariant(env, s1, reqs[1..]);
      EvolvesTransitive(s, s1, Run(env, s1, reqs[1..]));
    }
  }

  /** From an empty database, whatever is requested: every payment belongs
      to an existing booking, no booking has two payments, and every
      payment is for exactly its booking's total. */
  lemma FromEmpty(env: Env, reqs: seq<Request>)
    ensures var s := Run(env, Store(map[], map[]), reqs);
      && (forall pid :: pid in s.payments ==> s.payments[pid].booking in s.bookings)
      && (forall p, q :: p in s.payments && q in s.payments && s.payments[p].booking == s.payments[q].booking ==> p == q)
      && (forall pid :: pid in s.payments ==> s.payments[pid].amount == s.bookings[s.payments[pid].booking].totalPrice)
  {
    RunInvariant(env, Store(map[], map[]), reqs);
  }

  /** The amount the gateway is asked for is the booking's price snapshot:
      the package price at creation times the traveller count, in cents. */
  lemma {:induction false} IntentChargesCreatedPrice(env: Env, s: Store, who: Requester, body: CreateBookingRequest,
                                                     bid: BookingId)
    requires IsUuid(body.travelPackageId) && body.travelPackageId in env.packages
    requires IsUuid(who.userId) && who.userId in env.users
    requires IsUuid(bid) && bid !in s.bookings && FitsInteger(body.numberOfTravelers)
    ensures CreateBooking(s, env.packages, env.users, who, body, bid).result.Success?
    ensures var s1 := CreateBooking(s, env.packages, env.users, who, body, bid).store;
      CreatePaymentIntent(s1, bid, true, true).result
        == Success(ClientSecret(Charge(env.packages[body.travelPackageId].price * body.numberOfTravelers, "usd", bid)))
  {
  }

  /** Serving three requests is serving them one after another. */
  lemma RunThree(env: Env, s: Store, r1: Request, r2: Request, r3: Request)
    requires WellFormed(s)
    ensures Run(env, s, [r1, r2, r3]) == Step(env, Step(env, Step(env, s, r1), r2), r3)
  {
    var s1 := Step(env, s, r1);
    var s2 := Step(env, s1, r2);
    assert [r1, r2, r3][1..] == [r2, r3];
    assert [r2, r3][1..] == [r3];
    assert [r3][1..] == [];
    assert Run(env, s2, [r3]) == Run(env, Step(env, s2, r3), []);
  }

  /** A fresh booking of two travellers on a package, by a known user. */
  function BookTwo(u: Requester, pkg: PackageId, date: Day, bid: BookingId): Request {
    CreateBookingCall(u, CreateBookingRequest(pkg, 2, date), bid)
  }

  /** The store after the booking of `BookTwo` on an empty database. */
  lemma AfterBookTwo(env: Env, u: Requester, pkg: PackageId, date: Day, bid: BookingId)
    requires IsUuid(pkg) && pkg in env.packages && IsUuid(u.userId) && u.userId in env.users
    ensures Step(env, Store(map[], map[]), BookTwo(u, pkg, date, bid))
         == Store(map[bid := Booking(u.userId, pkg, 2, env.packages[pkg].price * 2, BookingStatus.Pending, date)], map[])
  {
  }

  /** The store after the owner auto-pays a booking that has no payment,
      under a payment key not yet in use. */
  lemma AfterAutoPay(env: Env, s: Store, u: Requester, bid: BookingId, txn: string, pid: PaymentId)
    requires WellFormed(s) && IsUuid(bid) && bid in s.bookings && s.bookings[bid].user == u.userId
    requires Unpaid(s, bid) && pid !in s.payments
    ensures var b := s.bookings[bid];
      Step(env, s, AutoPayCall(u, bid, txn, pid))
        == Store(s.bookings[bid := b.(status := Confirmed)],
                 s.payments[pid := Payment(bid, b.totalPrice, PaymentStatus.Completed, Some(txn), Some(Auto))])
  {
    assert Unpaid(s, bid);
  }

  /** The store after an admin refunds a payment whose gateway call returns. */
  lemma AfterRefund(env: Env, s: Store, admin: Requester, pid: PaymentId)
    requires WellFormed(s) && IsAdmin(admin) && IsUuid(pid) && pid in s.payments
    ensures var p := s.payments[pid];
      Step(env, s, RefundCall(admin, pid, true))
        == Store(s.bookings[p.booking := s.bookings[p.booking].(status := Cancelled)],
                 s.payments[pid := p.(status := PaymentStatus.Refunded)])
  {
  }

  /** The store after anyone sets a booking's status to "cancelled". */
  lemma AfterCancel(env: Env, s: Store, who: Requester, bid: BookingId)
    requires WellFormed(s) && IsUuid(bid) && bid in s.bookings
    ensures Step(env, s, UpdateStatusCall(who, bid, Given("cancelled")))
         == s.(bookings := s.bookings[bid := s.bookings[bid].(status := Cancelled)])
  {
    assert ParseStatus("cancelled") == Some(Cancelled);
  }

  /** Book two travellers, auto-pay, then have an admin refund the payment:
      the booking ends cancelled and the payment refunded, both still at
      twice the package price. */
  lemma BookPayRefund(env: Env, u: Requester, admin: Requester, pkg: PackageId, date: Day,
                      bid: BookingId, pid: PaymentId, txn: string)
    requires IsUuid(pkg) && pkg in env.packages && IsUuid(u.userId) && u.userId in env.users
    requires IsUuid(bid) && IsUuid(pid) && IsAdmin(admin)
    ensures var s := Run(env, Store(map[], map[]), [BookTwo(u, pkg, date, bid), AutoPayCall(u, bid, txn, pid),
                                                     RefundCall(admin, pid, true)]);
      && s.bookings.Keys == {bid} && s.payments.Keys == {pid}
      && s.bookings[bid].status == Cancelled && s.bookings[bid].totalPrice == env.packages[pkg].price * 2
      && s.payments[pid].status == PaymentStatus.Refunded && s.payments[pid].amount == env.packages[pkg].price * 2
  {
    var s0 := Store(map[], map[]);
    var r1, r2, r3 := BookTwo(u, pkg, date, bid), AutoPayCall(u, bid, txn, pid), RefundCall(admin, pid, true);
    RunThree(env, s0, r1, r2, r3);
    AfterBookTwo(env, u, pkg, date, bid);
    var s1 := Step(env, s0, r1);
    AfterAutoPay(env, s1, u, bid, txn, pid);
    var s2 := Step(env, s1, r2);
    AfterRefund(env, s2, admin, pid);
  }

  /** Cancelling a paid booking through the status update refunds nothing:
      the booking ends cancelled while its payment stays completed. */
  lemma CancelKeepsPayment(env: Env, u: Requester, pkg: PackageId, date: Day,
                           bid: BookingId, pid: PaymentId, txn: string)
    requires IsUuid(pkg) && pkg in env.packages && IsUuid(u.userId) && u.userId in env.users
    requires IsUuid(bid)
    ensures var s := Run(env, Store(map[], map[]), [BookTwo(u, pkg, date, bid), AutoPayCall(u, bid, txn, pid),
                                                     UpdateStatusCall(u, bid, Given("cancelled"))]);
      && bid in s.bookings && s.bookings[bid].status == Cancelled
      && pid in s.payments && s.payments[pid].status == PaymentStatus.Completed
  {
    var s0 := Store(map[], map[]);
    var r1, r2, r3 := BookTwo(u, pkg, date, bid), AutoPayCall(u, bid, txn, pid), UpdateStatusCall(u, bid, Given("cancelled"));
    RunThree(env, s0, r1, r2, r3);
    AfterBookTwo(env, u, pkg, date, bid);
    var s1 := Step(env, s0, r1);
    AfterAutoPay(env, s1, u, bid, txn, pid);
    var s2 := Step(env, s1, r2);
    AfterCancel(env, s2, u, bid);
  }
}

=== FILE: outcomes.dfy ===
/** Failure-carrying datatypes shared by every module of the model. */
module Outcomes {

  /** An optional value: a missing value (`null` or `undefined`). */
  datatype Option<+T> = None | Some(value: T)

  /** The outcome of a handler: a response body, or an HTTP error status. */
  datatype Result<+T, +E> = Success(value: T) | Failure(error: E)
}

=== FILE: payment_controller.dfy ===
/** The payment handlers: the gateway intent, the two confirm paths, the
    owner-only auto-payment and the admin-only refund. Each one reads and
    writes the two tables with sequential saves; a save that fails leaves the
    earlier saves of the same request in place. */
module PaymentController {
  import opened Outcomes
  import opened Identity
  import opened Catalog
  import opened BookingModel
  import opened PaymentModel
  import opened Ledger
  import opened Uuid

  /** What the gateway is asked to charge for a booking: the amount in
      cents, the currency, and the booking id carried in the metadata. */
  datatype Charge = Charge(amount: Cents, currency: string, bookingId: BookingId)

  /** The body of a successful intent request: a development placeholder
      secret when no gateway key is configured, otherwise the secret of an
      intent created for `charge` (the secret itself is the gateway's). */
  datatype IntentBody = MockSecret | ClientSecret(charge: Charge)

  /** A payment intent as the gateway reports it back. */
  datatype Intent = Intent(id: string, succeeded: bool, metadataBookingId: BookingId)

  /** The outcome of asking the gateway for an intent: the call throws (an
      unknown or missing id, a network failure), or it returns the intent. */
  datatype Retrieval = RetrieveFailed | Retrieved(intent: Intent)

  /** The confirm body: an intent id the client may leave out, and a booking id. */
  datatype ConfirmRequest = ConfirmRequest(paymentIntentId: Option<string>, bookingId: BookingId)

  /** The success messages, one per path. */
  datatype Ack = MockPaymentConfirmed | PaymentConfirmed | MockRefundProcessed | RefundProcessed

  /** The `payment` object of the auto-payment response. */
  datatype PaymentSummary = PaymentSummary(id: PaymentId, amount: Cents, status: PaymentStatus,
                                           transactionId: Option<string>)

  /** The payment row a confirm path creates: completed, for the booking's
      stored total, under the given transaction id and provider. */
  function Receipt(b: Booking, bid: BookingId, txn: Option<string>, provider: Provider): (p: Payment)
    ensures p.booking == bid && p.amount == b.totalPrice && p.status == PaymentStatus.Completed
    ensures p.transactionId == txn && p.provider == Some(provider)
  {
    NewPayment(bid, b.totalPrice, Some(PaymentStatus.Completed), txn, Some(provider))
  }

  /** createPaymentIntent. `configured` says whether a gateway key was set
      at start-up; `gatewayOk` whether the gateway's create call returned.
      The decimal total is converted with `round(total * 100)`, which on an
      amount held in cents is the amount itself. Nothing is written. */
  function CreatePaymentIntent(s: Store, bookingId: BookingId, configured: bool, gatewayOk: bool): (r: Reply<IntentBody>)
    ensures r.store == s
    ensures !IsUuid(bookingId) ==> r.result == Failure(ServerError)
    ensures IsUuid(bookingId) && bookingId !in s.bookings ==> r.result == Failure(NotFound)
    ensures IsUuid(bookingId) && bookingId in s.bookings ==>
      && (!configured ==> r.result == Success(MockSecret))
      && (configured && !gatewayOk ==> r.result == Failure(ServerError))
      && (configured && gatewayOk ==>
            r.result == Success(ClientSecret(Charge(s.bookings[bookingId].totalPrice, "usd", bookingId))))
  {
    match Lookup(s.bookings.Keys, bookingId)
    case Some(code) => Reply(s, Failure(code))
    case None =>
      if !configured then Reply(s, Success(MockSecret))
      else if !gatewayOk then Reply(s, Failure(ServerError))
      else Reply(s, Success(ClientSecret(Charge(s.bookings[bookingId].totalPrice, "usd", bookingId))))
  }

  /** The common tail of both confirm paths: save the booking as confirmed,
      then insert a completed payment for it. The insert is refused when the
      booking already has a payment (the join column is unique) or the new
      key is taken; the confirmed booking stays saved either way. */
  function ConfirmAndRecord(s: Store, bid: BookingId, txn: Option<string>, provider: Provider,
                            newId: PaymentId): (r: Reply<PaymentId>)
    requires bid in s.bookings
    ensures r.store.bookings == s.bookings[bid := s.bookings[bid].(status := Confirmed)]
    ensures r.result.Success? <==> newId !in s.payments && Unpaid(s, bid)
    ensures r.result.Success? ==>
      && r.result.value == newId
      && r.store.payments == s.payments[newId := Receipt(s.bookings[bid], bid, txn, provider)]
    ensures r.result.Failure? ==> r.result.error == ServerError && r.store.payments == s.payments
    ensures WellFormed(s) ==> WellFormed(r.store)
    ensures Consistent(s) ==> Consistent(r.store)
    ensures Evolves(s, r.store)
  {
    var s1 := SetBookingStatus(s, bid, Confirmed);
    match InsertPayment(s1, newId, Receipt(s.bookings[bid], bid, txn, provider))
    case None => Reply(s1, Failure(ServerError))
    case Some(s2) =>
      EvolvesTransitive(s, s1, s2);
      Reply(s2, Success(newId))
  }

  /** handleSuccessfulPayment: the booking named in the intent's metadata is
      confirmed and paid under the intent's id. A booking that is not found
      is silently skipped (`Success(None)`); a throw is a `Failure`, which
      the caller turns into its 500. */
  function HandleSuccessfulPayment(s: Store, intent: Intent, newId: PaymentId): (r: Reply<Option<PaymentId>>)
    ensures !IsUuid(intent.metadataBookingId) ==> r == Reply(s, Failure(ServerError))
    ensures IsUuid(intent.metadataBookingId) && intent.metadataBookingId !in s.bookings ==> r == Reply(s, Success(None))
    ensures IsUuid(intent.metadataBookingId) && intent.metadataBookingId in s.bookings ==>
      var bid := intent.metadataBookingId;
      && r.store.bookings == s.bookings[bid := s.bookings[bid].(status := Confirmed)]
      && (r.result.Success? <==> newId !in s.payments && Unpaid(s, bid))
      && (r.result.Success? ==>
            && r.result.value == Some(newId)
            && r.store.payments == s.payments[newId := Receipt(s.bookings[bid], bid, Some(intent.id), Stripe)])
      && (r.result.Failure? ==> r.store.payments == s.payments)
    ensures WellFormed(s) ==> WellFormed(r.store)
    ensures Consistent(s) ==> Consistent(r.store)
    ensures Evolves(s, r.store)
  {
    match Lookup(s.bookings.Keys, intent.metadataBookingId)
    case Some(ServerError) => Reply(s, Failure(ServerError))
    case Some(_) => Reply(s, Success(None))
    case None =>
      var c := ConfirmAndRecord(s, intent.metadataBookingId, Some(intent.id), Stripe, newId);
      match c.result
      case Failure(e) => Reply(c.store, Failure(e))
      case Success(pid) => Reply(c.store, Success(Some(pid)))
  }

  /** confirmPayment. Without a gateway key the body's booking is confirmed
      and paid under the body's intent id. With one, the intent is fetched
      from the gateway; one that has not succeeded is refused with 400, and
      one that has is handed to `HandleSuccessfulPayment`, which works on the
      booking named in the intent, not the one in the body. */
  function ConfirmPayment(s: Store, req: ConfirmRequest, configured: bool, retrieval: Retrieval,
                          newId: PaymentId): (r: Reply<Ack>)
    ensures !configured ==>
      var bid := req.bookingId;
      && (!IsUuid(bid) ==> r == Reply(s, Failure(ServerError)))
      && (IsUuid(bid) && bid !in s.bookings ==> r == Reply(s, Failure(NotFound)))
      && (IsUuid(bid) && bid in s.bookings ==>
            && r.store.bookings == s.bookings[bid := s.bookings[bid].(status := Confirmed)]
            && (r.result.Success? <==> newId !in s.payments && Unpaid(s, bid))
            && (r.result.Success? ==>
                  && r.result.value == MockPaymentConfirmed
                  && r.store.payments == s.payments[newId := Receipt(s.bookings[bid], bid, req.paymentIntentId, Mock)])
            && (r.result.Failure? ==> r.result.error == ServerError && r.store.payments == s.payments))
    ensures configured && retrieval.RetrieveFailed? ==> r == Reply(s, Failure(ServerError))
    ensures configured && retrieval.Retrieved? && !retrieval.intent.succeeded ==> r == Reply(s, Failure(BadRequest))
    ensures configured && retrieval.Retrieved? && retrieval.intent.succeeded ==>
      var h := HandleSuccessfulPayment(s, retrieval.intent, newId);
      && r.store == h.store
      && (r.result.Success? <==> h.result.Success?)
      && (r.result.Success? ==> r.result.value == PaymentConfirmed)
      && (r.result.Failure? ==> r.result.error == ServerError)
    ensures WellFormed(s) ==> WellFormed(r.store)
    ensures Consistent(s) ==> Consistent(r.store)
    ensures Evolves(s, r.store)
  {
    if !configured then
      match Lookup(s.bookings.Keys, req.bookingId)
      case Some(code) => Reply(s, Failure(code))
      case None =>
        var c := ConfirmAndRecord(s, req.bookingId, req.paymentIntentId, Mock, newId);
        if c.result.Success? then Reply(c.store, Success(MockPaymentConfirmed))
        else Reply(c.store, Failure(ServerError))
    else
      match retrieval
      case RetrieveFailed => Reply(s, Failure(ServerError))
      case Retrieved(intent) =>
        if !intent.succeeded then Reply(s, Failure(BadRequest))
        else
          var h := HandleSuccessfulPayment(s, intent, newId);
          if h.result.Success? then Reply(h.store, Success(PaymentConfirmed))
          else Reply(h.store, Failure(ServerError))
  }

  /** The auto-payment rewrite of an existing payment row: completed, under
      the new transaction id and the `auto` provider; booking and amount kept. */
  function AutoPaid(p: Payment, txn: string): (q: Payment)
    ensures q.booking == p.booking && q.amount == p.amount
    ensures q.status == PaymentStatus.Completed && q.transactionId == Some(txn) && q.provider == Some(Auto)
  {
    p.(status := PaymentStatus.Completed, transactionId := Some(txn), provider := Some(Auto))
  }

  /** The requester owns the booking the request names. */
  predicate OwnsBooking(s: Store, who: Requester, bid: BookingId) {
    IsUuid(bid) && bid in s.bookings && s.bookings[bid].user == who.userId
  }

  /** What processAutoPayment does once the requester is known to own the
      booking: save it as confirmed, then complete its payment row in place
      if it has one, or insert a new completed one. */
  function SettleBooking(s: Store, bid: BookingId, txn: string, newId: PaymentId): (r: Reply<PaymentSummary>)
    requires WellFormed(s) && bid in s.bookings
    ensures r.store.bookings == s.bookings[bid := s.bookings[bid].(status := Confirmed)]
    ensures forall pid :: pid in s.payments && s.payments[pid].booking == bid ==>
      && r.store.payments == s.payments[pid := AutoPaid(s.payments[pid], txn)]
      && r.result == Success(PaymentSummary(pid, s.payments[pid].amount, PaymentStatus.Completed, Some(txn)))
    ensures Unpaid(s, bid) && newId !in s.payments ==>
      && r.store.payments == s.payments[newId := Receipt(s.bookings[bid], bid, Some(txn), Auto)]
      && r.result == Success(PaymentSummary(newId, s.bookings[bid].totalPrice, PaymentStatus.Completed, Some(txn)))
    ensures Unpaid(s, bid) && newId in s.payments ==>
      r.store.payments == s.payments && r.result == Failure(ServerError)
    ensures WellFormed(r.store)
    ensures Consistent(s) ==> Consistent(r.store)
    ensures Evolves(s, r.store)
  {
    var s1 := SetBookingStatus(s, bid, Confirmed);
    match PaymentOf(s1, bid)
    case Some(pid) =>
      var p := AutoPaid(s1.payments[pid], txn);
      var s2 := RewritePayment(s1, pid, p);
      EvolvesTransitive(s, s1, s2);
      Reply(s2, Success(PaymentSummary(pid, p.amount, p.status, p.transactionId)))
    case None =>
      var p := Receipt(s.bookings[bid], bid, Some(txn), Auto);
      match InsertPayment(s1, newId, p)
      case None => Reply(s1, Failure(ServerError))
      case Some(s2) =>
        EvolvesTransitive(s, s1, s2);
        Reply(s2, Success(PaymentSummary(newId, p.amount, p.status, p.transactionId)))
  }

  /** processAutoPayment. `txn` is the fresh `auto_…` transaction id and
      `newId` the key a new payment row would get. The payment lookup by
      booking relies on the schema's unique join column. */
  function ProcessAutoPayment(s: Store, who: Requester, bid: BookingId, txn: string, newId: PaymentId): (r: Reply<PaymentSummary>)
    requires WellFormed(s)
    ensures !IsUuid(bid) ==> r == Reply(s, Failure(ServerError))
    ensures IsUuid(bid) && bid !in s.bookings ==> r == Reply(s, Failure(NotFound))
    ensures IsUuid(bid) && bid in s.bookings && s.bookings[bid].user != who.userId ==> r == Reply(s, Failure(Forbidden))
    ensures OwnsBooking(s, who, bid) ==> r == SettleBooking(s, bid, txn, newId)
    ensures WellFormed(r.store)
    ensures Consistent(s) ==> Consistent(r.store)
    ensures Evolves(s, r.store)
  {
    match Lookup(s.bookings.Keys, bid)
    case Some(code) => Reply(s, Failure(code))
    case None =>
      if s.bookings[bid].user != who.userId then Reply(s, Failure(Forbidden))
      else SettleBooking(s, bid, txn, newId)
  }

  /** processRefund. `configured` says whether a gateway key is set and
      `refundOk` whether the gateway's refund call returned. The payment is
      saved as refunded first and its booking as cancelled second, whatever
      either status was before. */
  function ProcessRefund(s: Store, who: Requester, pid: PaymentId, configured: bool, refundOk: bool): (r: Reply<Ack>)
    ensures !IsAdmin(who) ==> r == Reply(s, Failure(Forbidden))
    ensures IsAdmin(who) && !IsUuid(pid) ==> r == Reply(s, Failure(ServerError))
    ensures IsAdmin(who) && IsUuid(pid) && pid !in s.payments ==> r == Reply(s, Failure(NotFound))
    ensures IsAdmin(who) && IsUuid(pid) && pid in s.payments && configured && !refundOk ==>
      r == Reply(s, Failure(ServerError))
    ensures IsAdmin(who) && IsUuid(pid) && pid in s.payments && (!configured || refundOk) ==>
      var bid := s.payments[pid].booking;
      && r.store.payments == s.payments[pid := s.payments[pid].(status := PaymentStatus.Refunded)]
      && (bid in s.bookings ==>
            && r.store.bookings == s.bookings[bid := s.bookings[bid].(status := Cancelled)]
            && r.result == Success(if configured then RefundProcessed else MockRefundProcessed))
      && (bid !in s.bookings ==> r.store.bookings == s.bookings && r.result == Failure(ServerError))
    ensures WellFormed(s) ==> WellFormed(r.store)
    ensures Consistent(s) ==> Consistent(r.store)
    ensures Evolves(s, r.store)
  {
    if !IsAdmin(who) then Reply(s, Failure(Forbidden))
    else
      match Lookup(s.payments.Keys, pid)
      case Some(code) => Reply(s, Failure(code))
      case None =>
        if configured && !refundOk then Reply(s, Failure(ServerError))
        else
          var p := s.payments[pid];
          var s1 := RewritePayment(s, pid, p.(status := PaymentStatus.Refunded));
          if p.booking !in s1.bookings then Reply(s1, Failure(ServerError))
          else
            var s2 := SetBookingStatus(s1, p.booking, Cancelled);
            EvolvesTransitive(s, s1, s2);
            Reply(s2, Success(if configured then RefundProcessed else MockRefundProcessed))
  }

  /** A booking is paid once. A mock confirm of an unpaid booking records
      its payment; confirming again (under any new key) saves the booking as
      confirmed once more, then the unique join column refuses the second
      payment row: the reply is 500 and the payment table is as the first
      confirm left it. */
  lemma {:induction false} SecondConfirmRejected(s: Store, req: ConfirmRequest, retrieval: Retrieval,
                                                 newId1: PaymentId, newId2: PaymentId)
    requires IsUuid(req.bookingId) && req.bookingId in s.bookings
    requires newId1 !in s.payments && Unpaid(s, req.bookingId)
    ensures ConfirmPayment(s, req, false, retrieval, newId1).result == Success(MockPaymentConfirmed)
    ensures var s1 := ConfirmPayment(s, req, false, retrieval, newId1).store;
      var r := ConfirmPayment(s1, req, false, retrieval, newId2);
      && r.result == Failure(ServerError)
      && r.store.payments == s1.payments
      && r.store.bookings[req.bookingId].status == Confirmed
  {
    var s1 := ConfirmPayment(s, req, false, retrieval, newId1).store;
    var bid := req.bookingId;
    assert s1.payments[newId1].booking == bid;
    assert !Unpaid(s1, bid);
  }

  /** With a gateway key the body's booking id is never read: the booking
      that is confirmed is the one the intent names. */
  lemma GatewayConfirmIgnoresBodyBooking(s: Store, req1: ConfirmRequest, req2: ConfirmRequest,
                                         retrieval: Retrieval, newId: PaymentId)
    ensures ConfirmPayment(s, req1, true, retrieval, newId) == ConfirmPayment(s, req2, true, retrieval, newId)
  {
  }

  /** The payment row with a different status, everything else alike. */
  function WithPaymentStatus(s: Store, pid: PaymentId, st: PaymentStatus): (s': Store)
    requires pid in s.payments
    ensures s'.bookings == s.bookings && s'.payments.Keys == s.payments.Keys
    ensures s'.payments[pid].status == st
  {
    s.(payments := s.payments[pid := s.payments[pid].(status := st)])
  }

  /** No source-state check: a refund ends the same whatever the payment's
      status was, pending, failed and already refunded included. */
  lemma RefundFromAnyStatus(s: Store, who: Requester, pid: PaymentId, configured: bool, refundOk: bool,
                            st1: PaymentStatus, st2: PaymentStatus)
    requires pid in s.payments
    ensures var r1 := ProcessRefund(WithPaymentStatus(s, pid, st1), who, pid, configured, refundOk);
      var r2 := ProcessRefund(WithPaymentStatus(s, pid, st2), who, pid, configured, refundOk);
      r1.result == r2.result && (r1.result.Success? ==> r1.store == r2.store)
  {
    var s1, s2 := WithPaymentStatus(s, pid, st1), WithPaymentStatus(s, pid, st2);
    assert s1.payments[pid := s1.payments[pid].(status := PaymentStatus.Refunded)]
        == s2.payments[pid := s2.payments[pid].(status := PaymentStatus.Refunded)];
  }

  /** Auto-payment on a booking that already has a payment row rewrites
      that row and creates none: same keys, same amount, now completed. */
  lemma AutoPayUpdatesInPlace(s: Store, who: Requester, bid: BookingId, pid: PaymentId, txn: string, newId: PaymentId)
    requires WellFormed(s) && OwnsBooking(s, who, bid)
    requires pid in s.payments && s.payments[pid].booking == bid
    ensures var r := ProcessAutoPayment(s, who, bid, txn, newId);
      && r.result == Success(PaymentSummary(pid, s.payments[pid].amount, PaymentStatus.Completed, Some(txn)))
      && r.store.payments.Keys == s.payments.Keys
      && r.store.payments[pid] == AutoPaid(s.payments[pid], txn)
      && r.store.bookings[bid].status == Confirmed
  {
  }

  /** Auto-payment after a confirm does not add a second payment: the row
      the confirm created is completed again in place, under the auto
      provider, with the amount it was created with. */
  lemma {:induction false} AutoPayAfterConfirmUpdatesInPlace(s: Store, req: ConfirmRequest, retrieval: Retrieval,
                                                             who: Requester, newId: PaymentId, txn: string,
                                                             otherId: PaymentId)
    requires WellFormed(s) && IsUuid(req.bookingId) && req.bookingId in s.bookings
    requires newId !in s.payments && Unpaid(s, req.bookingId)
    requires s.bookings[req.bookingId].user == who.userId
    ensures var s1 := ConfirmPayment(s, req, false, retrieval, newId).store;
      var r := ProcessAutoPayment(s1, who, req.bookingId, txn, otherId);
      && r.result == Success(PaymentSummary(newId, s.bookings[req.bookingId].totalPrice, PaymentStatus.Completed, Some(txn)))
      && r.store.payments.Keys == s1.payments.Keys
      && r.store.payments[newId] == AutoPaid(s1.payments[newId], txn)
      && r.store.bookings[req.bookingId].status == Confirmed
  {
    var bid := req.bookingId;
    var s1 := ConfirmPayment(s, req, false, retrieval, newId).store;
    assert s1.payments == s.payments[newId := Receipt(s.bookings[bid], bid, req.paymentIntentId, Mock)];
    AutoPayUpdatesInPlace(s1, who, bid, newId, txn, otherId);
  }

  /** No guard on auto-payment either: a refunded payment of a cancelled
      booking is turned back into a completed payment of a confirmed one. */
  lemma {:induction false} AutoPayAfterRefund(s: Store, admin: Requester, pid: PaymentId, configured: bool,
                                              refundOk: bool, owner: Requester, txn: string, newId: PaymentId)
    requires WellFormed(s) && IsAdmin(admin) && IsUuid(pid) && pid in s.payments && (!configured || refundOk)
    requires IsUuid(s.payments[pid].booking) && s.bookings[s.payments[pid].booking].user == owner.userId
    ensures ProcessRefund(s, admin, pid, configured, refundOk).result.Success?
    ensures var s1 := ProcessRefund(s, admin, pid, configured, refundOk).store;
      var bid := s.payments[pid].booking;
      && s1.payments[pid].status == PaymentStatus.Refunded && s1.bookings[bid].status == Cancelled
      && var r := ProcessAutoPayment(s1, owner, bid, txn, newId);
         && r.result.Success?
         && r.store.payments[pid].status == PaymentStatus.Completed
         && r.store.bookings[bid].status == Confirmed
  {
    var s1 := ProcessRefund(s, admin, pid, configured, refundOk).store;
    var bid := s.payments[pid].booking;
    assert OwnsBooking(s1, owner, bid);
    assert s1.payments[pid].booking == bid;
  }
}

=== FILE: payment_model.dfy ===
/** The Payment entity: the money record of exactly one booking. */
module PaymentModel {
  import opened Outcomes
  import opened Catalog
  import BookingModel

  type PaymentId = string

  /** The four values the enum column admits. */
  datatype PaymentStatus = Pending | Completed | Failed | Refunded

  /** The value the column takes when an insert leaves the status out. */
  const DefaultPaymentStatus: PaymentStatus := Pending

  /** The payment path recorded in `paymentDetails.provider`. */
  datatype Provider = Stripe | Mock | Auto

  /** The persisted fields of a payment that the core reads or writes.
      `booking` is the one-to-one join column; `transactionId` is nullable
      until a payment path sets it. */
  datatype Payment = Payment(
    booking: BookingModel.BookingId,
    amount: Cents,
    status: PaymentStatus,
    transactionId: Option<string>,
    provider: Option<Provider>)

  /** `repository.create` for a payment: an omitted status takes the column
      default, and no transaction id or provider is recorded yet unless given. */
  function NewPayment(booking: BookingModel.BookingId, amount: Cents, status: Option<PaymentStatus>,
                      txn: Option<string>, provider: Option<Provider>): (p: Payment)
    ensures status.None? ==> p.status == PaymentStatus.Pending
    ensures status.Some? ==> p.status == status.value
    ensures p.booking == booking && p.amount == amount
    ensures p.transactionId == txn && p.provider == provider
  {
    Payment(booking, amount,
            match status case Some(st) => st case None => DefaultPaymentStatus,
            txn, provider)
  }
}

=== FILE: uuid.dfy ===
/** The text form of a `uuid` primary key, as the database parses it when a
    handler looks a row up by a client-supplied id. A string it cannot parse
    makes the query fail, which the handlers answer with 500 rather than 404. */
module Uuid {

  predicate IsHexDigit(c: char) {
    ('0' <= c <= '9') || ('a' <= c <= 'f') || ('A' <= c <= 'F')
  }

  predicate AllHex(s: string) {
    forall i :: 0 <= i < |s| ==> IsHexDigit(s[i])
  }

  /** `s` is `n` groups of four hex digits, with an optional hyphen between
      two consecutive groups and none before the first or after the last. */
  predicate HexGroups(s: string, n: nat)
    decreases n
  {
    if n == 0 then s == []
    else
      && |s| >= 4 && AllHex(s[..4])
      && (if n == 1 then |s| == 4
          else HexGroups(s[4..], n - 1) || (|s| > 4 && s[4] == '-' && HexGroups(s[5..], n - 1)))
  }

  /** A uuid is 128 bits: eight groups of four hex digits. */
  const Groups: nat := 8

  /** Thirty-two hex digits, hyphens allowed after any group of four, the
      whole optionally wrapped in one pair of braces. */
  predicate IsUuid(s: string) {
    HexGroups(s, Groups) || (|s| >= 2 && s[0] == '{' && s[|s| - 1] == '}' && HexGroups(s[1..|s| - 1], Groups))
  }

  /** `n` groups of four zeros, with no hyphens. */
  function Zeros(n: nat): string {
    seq(4 * n, i => '0')
  }

  /** The nil uuid, written as its thirty-two digits. */
  const NilUuid: string := Zeros(Groups)

  lemma {:induction false} ZerosParse(n: nat)
    ensures HexGroups(Zeros(n), n)
  {
    if n > 0 {
      var s := Zeros(n);
      assert AllHex(s[..4]);
      if n > 1 {
        ZerosParse(n - 1);
        assert s[4..] == Zeros(n - 1);
      }
    }
  }

  /** The nil uuid is a well-formed id. */
  lemma NilIsUuid()
    ensures IsUuid(NilUuid)
  {
    ZerosParse(Groups);
  }

  /** The number of characters a parse of `n` groups can consume: four per
      group plus at most one hyphen between groups. */
  lemma {:induction false} HexGroupsLength(s: string, n: nat)
    requires HexGroups(s, n)
    ensures 4 * n <= |s| <= 4 * n + (if n == 0 then 0 else n - 1)
  {
    if n > 1 {
      if HexGroups(s[4..], n - 1) {
        HexGroupsLength(s[4..], n - 1);
      } else {
        HexGroupsLength(s[5..], n - 1);
      }
    }
  }

  /** Every accepted id is between 32 characters (bare digits) and 41
      (braces and all seven hyphens) long; the empty string, in particular,
      is never a uuid. */
  lemma UuidLength(s: string)
    requires IsUuid(s)
    ensures 32 <= |s| <= 41
  {
    if HexGroups(s, Groups) {
      HexGroupsLength(s, Groups);
    } else {
      HexGroupsLength(s[1..|s| - 1], Groups);
    }
  }
}
